=== FILE: README.md ===
# PostCraft core, modelled in Dafny

PostCraft turns a topic into AI-written LinkedIn posts. Its only real decision
procedure is `generatePostsWithFallback`. It tries the Kimi models first,
when a Kimi key is configured, and then the free OpenRouter models. It stops
at the first reply that parses as JSON. It aborts on authentication failures.
It retries a model once without JSON mode when the provider seems to reject
that mode. When every model fails, it throws an exhaustion error. This project
models that procedure as a pure function. The network is an oracle
`call(endpoint, model, jsonMode)` and `JSON.parse` is an oracle `parse`.
Each run returns the result or the thrown error, the exact sequence of
requests made, and the error log. A thrown error is a `Thrown` value, and
`Message` gives the text of the `Error` the source throws for it.

Around it are four smaller cores, each modelled with its own properties:

- the browser-side post history, a state machine over one storage key;
- the request schema and saved-post record;
- the topic guard and character-count enrichment of the generate route;
- the truncation rule of the post preview.

Modules, one per file:

- `Wrappers` (`wrappers.dfy`): `Option` and `Result`.
- `Text` (`text.dfy`): JavaScript `trim`, `startsWith` and `includes`.
- `Validation` (`validation.dfy`): `lib/validation.ts`.
- `Storage` (`storage.dfy`): `lib/storage.ts`.
- `Preview` (`preview.dfy`): `components/linkedin-preview.tsx`.
- `JsonSpan` (`json_span.dfy`): the greedy `\{[\s\S]*\}` extraction of `lib/openrouter.ts`.
- `Fallback` (`fallback.dfy`): the rest of `lib/openrouter.ts`.
- `GenerateRoute` (`generate_route.dfy`): `app/api/generate/route.ts`.

Strings are `seq<char>`, where each `char` stands for one UTF-16 code unit.
That is what JavaScript's `length` and `slice` count.

Points where the code differs from what a reader might expect, all modelled as written:

- The Kimi loop stops only on status 401. A 403 moves on to the next Kimi model.
- The OpenRouter loop computes a "recoverable" classification (rate limit, provider error, 404). It never changes control flow. `RouterLoopAsWritten` keeps the `continue`/`break` structure literally, and `AsWrittenIsRouterLoop` proves it equal to the plain "every non-auth failure goes to the next model" loop.
- After a failed plain-mode retry, the error log records the first attempt's message, and the authentication check uses the first attempt's status.
- A missing `OPENROUTER_API_KEY` is thrown outside the loop's `try`. After a Kimi phase that ran out, it therefore ends the run with "OPENROUTER_API_KEY is not set".
- The schema's upper bound accepts a topic of exactly 500 code units, although its message says "less than 500".
- The route's own guard accepts topics of 1 to 500 code units, which is weaker than the schema's minimum of 3. The route never applies the schema.

## Model

| member | source | states |
|---|---|---|
| Text.TrimStartSpec | lib/openrouter.ts:36 | `trimStart` drops exactly the leading ECMAScript whitespace: the result is a suffix, everything removed is whitespace, and the result does not start with whitespace |
| Text.TrimEndSpec | lib/openrouter.ts:36 | `trimEnd` drops exactly the trailing whitespace: the result is a prefix, everything removed is whitespace, and the result does not end with whitespace |
| Text.TrimSpec | lib/openrouter.ts:100 | the trimmed key is a contiguous slice of the raw key with only whitespace before and after it, and it neither starts nor ends with whitespace |
| Text.TrimOfTrimmed | lib/openrouter.ts:100 | a key with nothing to trim is unchanged by `trim` |
| Text.TrimIdempotent | lib/openrouter.ts:36 | trimming twice is trimming once |
| Text.TrimIgnoresLeadingWhitespace | lib/openrouter.ts:36 | leading whitespace before a key never changes its trimmed form |
| Text.IncludesIffOccurs | lib/openrouter.ts:141 | `includes` holds exactly when the substring occurs at some position (the "400" in a message test) |
| Validation.ParseTone | lib/validation.ts:6 | a string accepted as a tone is exactly that tone's name |
| Validation.ParseToneName | lib/validation.ts:6 | each of Professional, Friendly, Smart and Storytelling is accepted as itself |
| Validation.ValidateRequest | lib/validation.ts:4-7 | a request is accepted iff its topic is present with 3 to 500 code units and its tone is one of the four names; an accepted request carries that topic and tone; a rejected one lists each failed check and only those |
| Validation.MaxLengthTopicAccepted | lib/validation.ts:5 | a 500-unit topic is accepted, despite the "less than 500" message |
| Validation.IssueMessage | lib/validation.ts:5 | only the two topic-length issues carry custom text: "Topic must be at least 3 characters" and "Topic must be less than 500 characters" |
| Validation.ShortTopicRejected | lib/validation.ts:5 | a non-empty topic under 3 units is refused with the single lower-bound issue and its message |
| Validation.OverlongTopicRejected | lib/validation.ts:5 | a 501-unit topic is refused with the single upper-bound issue and its message |
| Validation.ExtendPost | lib/validation.ts:28-34 | a parsed saved post keeps the given history fields, and is a favourite only if `isFavorite` was given as true |
| Validation.ExtendKeepsBase | lib/validation.ts:11-18 | a saved post carries every generated-post field unchanged, and a missing `isFavorite` defaults to false |
| Validation.ExtendBaseRoundTrip | lib/validation.ts:28-34 | a saved post is rebuilt exactly from its generated-post part and its history fields |
| Storage.GetPosts | lib/storage.ts:5-14 | the stored list, or the empty list when there is no window, nothing stored, or unparseable text |
| Storage.Write | lib/storage.ts:20 | with a window, a write makes the stored list exactly the given one; without one, it changes nothing |
| Storage.SavePost | lib/storage.ts:16-24 | the history becomes the new post followed by the old history, one longer, with no deduplication or cap; without a window nothing changes |
| Storage.RemoveId | lib/storage.ts:29 | the result holds no post with the id, and each other post as many times as before |
| Storage.DeletePost | lib/storage.ts:26-34 | the history becomes the id-filtered old history; without a window nothing changes |
| Storage.ToggleId | lib/storage.ts:39-41 | same length, and position by position the post is unchanged or, where its id matches, identical except for a negated `isFavorite` |
| Storage.ToggleFavorite | lib/storage.ts:36-46 | the history becomes the toggled old history; without a window nothing changes |
| Storage.ClearHistory | lib/storage.ts:48-54 | afterwards the history reads as empty |
| Storage.RemoveIdAppend | lib/storage.ts:29 | filtering distributes over concatenation, so kept posts stay in their original order |
| Storage.RemoveAbsentId | lib/storage.ts:29 | filtering on an id no post carries is the identity |
| Storage.DeleteAbsentKeepsHistory | lib/storage.ts:26-30 | deleting an unknown id leaves the history unchanged |
| Storage.DeleteIdempotent | lib/storage.ts:26-30 | deleting an id twice is deleting it once |
| Storage.ToggleTwiceRestores | lib/storage.ts:36-42 | toggling the same id twice restores the history |
| Storage.SaveOverUnreadable | lib/storage.ts:5-20 | saving over unparseable storage leaves a history of just the new post |
| Preview.DisplayContent | components/linkedin-preview.tsx:20-22 | the shown text is always a prefix of the content; it is the whole content unless truncating, the first 210 units when truncating unexpanded, and the whole content when expanded or forced; when it differs it has at most 210 units |
| Preview.Render | components/linkedin-preview.tsx:58-67 | the text shown is `displayContent`: the first 210 units when cut, the whole content otherwise; the ellipsis shows iff the text is cut, iff unexpanded and truncating; the toggle shows iff truncating, labelled "see less" when expanded and "see more" otherwise; forcing shows everything with neither |
| Preview.ToggleTwiceRestores | components/linkedin-preview.tsx:63 | two clicks restore the view, and one click changes it whenever the toggle is shown |
| JsonSpan.FirstIndex | lib/openrouter.ts:84 | the position returned holds the character and no earlier one does; none is returned only if the character is absent |
| JsonSpan.LastIndex | lib/openrouter.ts:84 | the position returned holds the character and no later one does; none is returned only if the character is absent |
| JsonSpan.Extract | lib/openrouter.ts:85 | the parsed text is never longer than the content |
| JsonSpan.ExtractFollowsRegex | lib/openrouter.ts:84-85 | a span is found iff the pattern matches somewhere; the span is the leftmost-start, longest match and is what gets parsed; otherwise the whole content is parsed |
| JsonSpan.ExtractFromWrapped | lib/openrouter.ts:83-85 | an object with no `{` before it and no `}` after it is extracted exactly, whatever prose surrounds it |
| JsonSpan.ExtractFromCodeFence | lib/openrouter.ts:83-85 | a reply fenced as a json code block yields exactly the enclosed object |
| Fallback.CatalogueDistinct | lib/openrouter.ts:4-29 | none of the three model lists repeats a model |
| Fallback.GetAIClient | lib/openrouter.ts:31-59 | a client exists iff its key is set; else the matching "is not set" error; the Kimi client is NVIDIA NIM iff the trimmed key starts with "nvapi-", and only the OpenRouter provider gets the OpenRouter endpoint |
| Fallback.KimiModelList | lib/openrouter.ts:100-102 | the NVIDIA list is chosen iff the trimmed key starts with `nvapi-`, and the Moonshot list otherwise |
| Fallback.KimiClientMatchesModels | lib/openrouter.ts:100-102 | the base URL sniff in `getAIClient` (lines 36-38) and the list sniff agree: NVIDIA endpoint iff NVIDIA list, Moonshot endpoint iff Moonshot list |
| Fallback.KimiSniffIgnoresLeadingWhitespace | lib/openrouter.ts:100-101 | leading whitespace in the key does not change the chosen list |
| Fallback.AttemptGeneration | lib/openrouter.ts:63-91 | an attempt parses iff the reply has non-empty content whose extracted span parses, yielding that value; missing or empty content fails with no status and "No content generated"; non-empty content whose span does not parse fails with no status and "Failed to parse AI response as JSON"; a thrown error keeps its status and message |
| Fallback.AttemptParsesRegexMatch | lib/openrouter.ts:79-90 | when the content matches `\{[\s\S]*\}`, the attempt parses exactly the leftmost-longest match, or fails with the parse-failure message |
| Fallback.AttemptParsesWholeWithoutMatch | lib/openrouter.ts:79-90 | non-empty content with no match of the pattern is parsed whole, or fails with the parse-failure message |
| Fallback.ErrorText | lib/openrouter.ts:112 | the logged text is the error's message when it has one and "Unknown error" otherwise |
| Fallback.KimiLoop | lib/openrouter.ts:105-120 | no more log entries than requests and no more requests than models; a 401 stop always has a logged entry |
| Fallback.KimiLoopRequests | lib/openrouter.ts:105-108 | requests follow the list in order, one JSON-mode request per model |
| Fallback.KimiLoopStops | lib/openrouter.ts:105-109 | running out means every model was tried; a return is labelled `kimi:` plus the last model tried |
| Fallback.KimiLoopCalls | lib/openrouter.ts:105-109 | requests follow the list in order, one JSON-mode request per model; running out means every model was tried; a return is labelled `kimi:` plus the last model tried |
| Fallback.KimiLoopLog | lib/openrouter.ts:110-113 | the i-th log entry is `kimi:` plus the i-th model with that model's failed JSON-mode error text (message or "Unknown error"); one entry per request, less one when the loop returned |
| Fallback.KimiLoopFirstSuccess | lib/openrouter.ts:105-109 | if earlier models failed without 401, the first Kimi model that parses is returned as `kimi:<model>` after k+1 requests and k log entries |
| Fallback.KimiLoopAuthStop | lib/openrouter.ts:110-118 | a 401 on model k stops the loop there, after k+1 requests, with model k's message last in the log |
| Fallback.TryOpenRouterModel | lib/openrouter.ts:133-166 | one JSON-mode request for the model, then at most one plain retry of the same model; a JSON-mode success is returned at once with that attempt's parsed value and one request; a win is labelled with the bare model name; a loss logs one entry with the first attempt's message and classifies auth by the first attempt's status |
| Fallback.PlainModeRetry | lib/openrouter.ts:141-151 | a 400 status or "400" in the message causes exactly one plain-mode retry; if it parses, the bare model name is returned; if it fails, only the first attempt is logged |
| Fallback.NoRetryOtherwise | lib/openrouter.ts:141-166 | without a provider error there is no retry and the first attempt is logged |
| Fallback.RouterLoop | lib/openrouter.ts:132-185 | at most one log entry and two requests per model, all requests to OpenRouter |
| Fallback.RouterLoopEntries | lib/openrouter.ts:132-185 | the i-th log entry is exactly the entry the i-th free model's lost attempt produced |
| Fallback.RouterLoopStops | lib/openrouter.ts:132-185 | running out means every model was logged; an auth stop reports the last logged error; a return is labelled with the model after the logged ones |
| Fallback.RouterLoopShape | lib/openrouter.ts:132-185 | the i-th log entry is the i-th free model's, exactly as its lost attempt produced it; running out means every model was logged; an auth stop reports the last logged error; a return is labelled with the model after the logged ones |
| Fallback.RouterLoopAsWritten | lib/openrouter.ts:132-185 | the literal loop, with the recoverable classification, `continue` and `break`, logs at most one entry per remaining model |
| Fallback.AsWrittenStep | lib/openrouter.ts:136-184 | one literal iteration is one model's attempt, with its optional retry, followed by the rest of the loop |
| Fallback.AsWrittenIsRouterLoop | lib/openrouter.ts:175-183 | the recoverable classification does not affect control flow: the literal loop equals the plain loop |
| Fallback.RouterFirstWin | lib/openrouter.ts:136-148 | after k non-auth losses, the first winning model's result is returned with k log entries |
| Fallback.RouterAuthAbort | lib/openrouter.ts:166-173 | a 401 or 403 on model k stops the loop with model k's logged error, k+1 entries, and exactly the requests of models 0..k |
| Fallback.RouterExhausted | lib/openrouter.ts:180-183 | when every model loses without auth, the loop runs out with one entry per model, the last being the last model's |
| Fallback.KimiPhase | lib/openrouter.ts:97-121 | without a Kimi key there are no Kimi requests; all Kimi requests are JSON-mode and never go to OpenRouter |
| Fallback.KimiLabels | lib/openrouter.ts:109 | position by position, the `modelUsed` label of a Kimi model is `kimi:` followed by the model |
| Fallback.Message | lib/openrouter.ts:124-191 | the thrown texts: a missing key's message as is; "Kimi Authentication Failed: " then the last error then the restart hint; "Authentication failed: " then the error and nothing more; the exhaustion sentence alone, or followed by "Last error: " and the last error |
| Fallback.LastError | lib/openrouter.ts:190 | the exhaustion message quotes a last error exactly when the log is non-empty |
| Fallback.GeneratePostsWithFallback | lib/openrouter.ts:94-193 | a run makes at most (Kimi list length + 2 x 9) requests |
| Fallback.ModelUsedInCatalogue | lib/openrouter.ts:105-148 | a success is labelled either with a free model or with `kimi:` plus a model of the chosen Kimi list |
| Fallback.KimiFirstSuccessReturns | lib/openrouter.ts:105-109 | the first parsing Kimi model ends the run with `kimi:<model>`; models 0..k were each requested once, in order, and k entries logged |
| Fallback.KimiAuthAborts | lib/openrouter.ts:114-127 | a Kimi 401 throws the Kimi authentication error built from that model's logged error ("Kimi Authentication Failed: ..." with the restart hint); no OpenRouter request is made |
| Fallback.OpenRouterKeyMissingThrows | lib/openrouter.ts:129 | after the Kimi phase runs out, a missing OpenRouter key throws "OPENROUTER_API_KEY is not set" with no further request |
| Fallback.RouterWinReturns | lib/openrouter.ts:136-148 | the first winning free model ends the run under its bare name, with k more log entries than the Kimi phase left |
| Fallback.KimiAuthRunMessage | lib/openrouter.ts:124-127 | after a Kimi 401, the thrown text is "Kimi Authentication Failed: ", that model's logged error, then the restart hint |
| Fallback.RouterAuthAborts | lib/openrouter.ts:168-173 | an OpenRouter 401 or 403 throws the authentication error ("Authentication failed: ...") with that model's message; the requests are the Kimi phase's and those of free models 0..k |
| Fallback.ExhaustedAfterKimi | lib/openrouter.ts:187-192 | over any non-empty list on which every model loses without auth, the run throws the exhaustion error quoting the last model's JSON-mode message, with one more entry per model |
| Fallback.RouterAuthRunMessage | lib/openrouter.ts:168-173 | after an OpenRouter 401 or 403, the thrown text is exactly "Authentication failed: " plus that model's JSON-mode message |
| Fallback.AllModelsExhausted | lib/openrouter.ts:187-192 | when all free models fail without auth, the run throws the exhaustion error ("All AI models ..." then "Last error: ") quoting the last free model's JSON-mode message, with one entry per free model |
| Fallback.ExhaustedRunMessage | lib/openrouter.ts:187-191 | when every free model fails without auth, the thrown text is the fixed "All AI models ..." sentence, then "Last error: ", then the last free model's JSON-mode message |
| Fallback.RouterCallModels | lib/openrouter.ts:132-152 | the OpenRouter loop requests only models of its list |
| Fallback.RouterCallsDistinct | lib/openrouter.ts:132-152 | over distinct models, the OpenRouter loop never repeats a request |
| Fallback.CallsAreDistinct | lib/openrouter.ts:94-193 | no (endpoint, model, jsonMode) request repeats within a run |
| GenerateRoute.LengthOrDefault | app/api/generate/route.ts:18 | a missing or empty length becomes "Medium", and any other length is kept as given |
| GenerateRoute.AddCharacterCounts | app/api/generate/route.ts:22-25 | same count and order of posts; every field carried over; `characterCount` is the length of `full` |
| GenerateRoute.Post | app/api/generate/route.ts:6-39 | an unreadable body gives 500 with its error; a guard failure gives 400 "Invalid topic length"; a 400 only arises that way; a generation failure gives 500 with its message; a success gives 200 with the counted posts and nothing else; status 200 iff success body |
| GenerateRoute.TopicGuardBounds | app/api/generate/route.ts:11 | the guard admits exactly topics of 1 to 500 units, and refuses a missing topic |
| GenerateRoute.GuardRejectionSkipsGeneration | app/api/generate/route.ts:11-16 | a refused topic yields 400 whatever generation would do, so generation is never reached |
| GenerateRoute.GuardWeakerThanSchema | app/api/generate/route.ts:11 | 1- and 2-unit topics pass the guard yet fail the schema |
| GenerateRoute.SchemaImpliesGuard | app/api/generate/route.ts:11 | every schema-valid request passes the guard |
| GenerateRoute.ModelUsedNotForwarded | app/api/generate/route.ts:27-30 | two results that differ only in `modelUsed` give the same response |
| GenerateRoute.CountsRoundTrip | app/api/generate/route.ts:22-25 | dropping the added counts gives back the drafts, in order |

## Left out

- The SDK client construction, base URLs, headers, and the HTTP call itself (lib/openrouter.ts:42-58, 70-77). These are the `call` oracle and the `Endpoint` tag.
- The `completion.choices[0]` access: a reply with no choices is not modelled. `Reply.Completed` always carries the first choice's content.
- `JSON.parse` and the JSON grammar. They are the uninterpreted `parse` oracle. The parsed value is generic, and the spread `{ ...result, modelUsed }` becomes `Generation(payload, modelUsed)`.
- `console` logging. `isRateLimit` feeds the `console.warn` at lib/openrouter.ts:160-164 and the `continue` test at lib/openrouter.ts:176. It is modelled as `IsRateLimit`, and `AsWrittenIsRouterLoop` shows it never changes the outcome.
- The network is deterministic in the model. `CallsAreDistinct` shows that no request repeats within a run, so this loses no behaviour.
- `process.env` reads become the `Env` record. An environment variable counts as set when it is present and non-empty.
- The OpenAI SDK's exact error objects are reduced to an optional status and a message. The empty message stands for an absent one.
- Storage.GetPosts: stored JSON that parses to something other than a list of posts is not modelled. The JSON round trip is the identity, and any unreadable text is `Unreadable`.
- Storage.Write: a quota failure of `setItem` is not modelled, because only the missing-window failure comes from code in view.
- `window` events, React hooks and state (hooks/use-post-history.ts), `crypto.randomUUID` and `Date.now`. These are I/O and nondeterminism.
- Validation.ValidateRequest: the exact wording of Zod's default messages for a missing topic and for a bad tone is not modelled. Only the two custom topic messages are. Topics of a non-string type are not modelled either.
- GenerateRoute.Post: the `"Failed to generate posts"` text for non-`Error` throws is not modelled, because every modelled callee throws an `Error`. Request bodies are modelled as objects with optional string fields, so a JSON `null` body (whose destructuring throws, giving a 500) and non-string field values are not representable. A generation result is either a list of drafts or has no `posts`, so `posts: null` or a non-array `posts` (which throw a different `TypeError`) are not modelled. A draft has exactly the five string fields, so extra fields that `...post` would forward, a missing `hashtags`, non-string values and a post without `full` are not modelled. `generate` stands for prompt building followed by `generatePostsWithFallback`.
- lib/prompts.ts is not part of this model. It is fixed prose in a template. The route calls `buildPrompt` with three arguments, while its definition takes two.
- app/api/generate/hook/route.ts is not part of this model. It depends on `hookRequestSchema` and `buildHookPrompt`, which lib/validation.ts and lib/prompts.ts do not define.
- The UI-only files (app/page.tsx, components/post-display.tsx, components/post-history.tsx, components/copy-button.tsx, components/ai-input-search.tsx) and the data-only files lib/constants.ts and types/index.ts. No history cap is modelled, since `maxHistoryItems` is enforced nowhere.
- JavaScript numbers (`createdAt`, `characterCount`) are unbounded integers. Floating point is not modelled.
- Surrogate pairs are not modelled. A `char` is one UTF-16 code unit.

=== FILE: fallback.dfy ===
/**
 * `generatePostsWithFallback`: try the Kimi models (when a Kimi key is
 * configured), then the free OpenRouter models, in priority order, until one
 * attempt yields parseable JSON.
 *
 * The network is the oracle `call(endpoint, model, jsonMode)` and
 * `JSON.parse` is the oracle `parse`. No (endpoint, model, jsonMode) triple is
 * requested twice in one run (`CallsAreDistinct`), so a deterministic oracle
 * loses no behaviour.
 */
module Fallback {
  import opened Wrappers
  import Text
  import JsonSpan

  // ---------------------------------------------------------------- catalogue

  /** Models of the direct Moonshot API. */
  const MoonshotOnlyModels: seq<string> := ["kimi-k2", "kimi-k2.5", "kimi-k2-thinking", "moonshot-v1-8k"]

  /** Models of NVIDIA NIM, used for keys that start with `nvapi-`. */
  const NvidiaKimiModels: seq<string> :=
    ["moonshotai/kimi-k2-instruct", "moonshotai/kimi-k2.5", "moonshotai/kimi-k2-thinking"]

  /** The free OpenRouter models, best first. */
  const FreeModels: seq<string> := [
    "meta-llama/llama-4-scout:free",
    "meta-llama/llama-4-maverick:free",
    "deepseek/deepseek-r1:free",
    "google/gemini-2.0-flash:free",
    "meta-llama/llama-3.3-70b-instruct:free",
    "mistralai/mistral-small-3.1-24b-instruct:free",
    "google/gemma-3-27b:free",
    "qwen/qwen-2.5-72b-instruct:free",
    "amazon/nova-2-lite:free"
  ]

  predicate Distinct<X(==)>(s: seq<X>) {
    forall i, j :: 0 <= i < j < |s| ==> s[i] != s[j]
  }

  lemma CatalogueDistinct()
    ensures Distinct(MoonshotOnlyModels) && Distinct(NvidiaKimiModels) && Distinct(FreeModels)
  {
  }

  // ------------------------------------------------------------------ clients

  /** The chat-completion endpoints a client can be built for. */
  datatype Endpoint = NvidiaNim | MoonshotDirect | OpenRouter

  datatype Provider = KimiProvider | OpenRouterProvider

  /** The two credentials, as read from the environment. */
  datatype Env = Env(kimiKey: Option<string>, openRouterKey: Option<string>)

  /** JavaScript truthiness of an environment variable: set and not empty. */
  predicate IsSet(v: Option<string>) {
    v.Some? && v.value != ""
  }

  /** The prefix sniff on the trimmed Kimi key. */
  predicate IsNvidiaKey(rawKey: string) {
    Text.StartsWith(Text.Trim(rawKey), "nvapi-")
  }

  const KimiKeyMissing := "KIMI_API_KEY is not set"
  const OpenRouterKeyMissing := "OPENROUTER_API_KEY is not set"

  /** `getAIClient`: which endpoint the client talks to, or the missing-key error. */
  function GetAIClient(provider: Provider, env: Env): (r: Result<Endpoint, string>)
    ensures provider == KimiProvider ==> (r.Success? <==> IsSet(env.kimiKey))
    ensures provider == OpenRouterProvider ==> (r.Success? <==> IsSet(env.openRouterKey))
    ensures r.Success? ==> (r.value == OpenRouter <==> provider == OpenRouterProvider)
    ensures r.Success? && provider == KimiProvider ==>
      (r.value == NvidiaNim <==> IsNvidiaKey(env.kimiKey.value))
    ensures r.Failure? ==>
      r.error == if provider == KimiProvider then KimiKeyMissing else OpenRouterKeyMissing
  {
    match provider
    case KimiProvider =>
      if !IsSet(env.kimiKey) then Failure(KimiKeyMissing)
      else Success(if IsNvidiaKey(env.kimiKey.value) then NvidiaNim else MoonshotDirect)
    case OpenRouterProvider =>
      if !IsSet(env.openRouterKey) then Failure(OpenRouterKeyMissing) else Success(OpenRouter)
  }

  /** The Kimi model list chosen in `generatePostsWithFallback`. */
  function KimiModelList(rawKey: string): (r: seq<string>)
    ensures r == NvidiaKimiModels <==> IsNvidiaKey(rawKey)
    ensures r == MoonshotOnlyModels <==> !IsNvidiaKey(rawKey)
  {
    if IsNvidiaKey(rawKey) then NvidiaKimiModels else MoonshotOnlyModels
  }

  /** The client's base URL and the model list come from the same sniff of the same trimmed key. */
  lemma KimiClientMatchesModels(env: Env)
    requires IsSet(env.kimiKey)
    ensures GetAIClient(KimiProvider, env) == Success(NvidiaNim)
        <==> KimiModelList(env.kimiKey.value) == NvidiaKimiModels
    ensures GetAIClient(KimiProvider, env) == Success(MoonshotDirect)
        <==> KimiModelList(env.kimiKey.value) == MoonshotOnlyModels
  {
    assert |NvidiaKimiModels| != |MoonshotOnlyModels|;
  }

  /** Whitespace before the key does not change the choice. */
  lemma KimiSniffIgnoresLeadingWhitespace(w: string, key: string)
    requires Text.AllWhitespace(w)
    ensures KimiModelList(w + key) == KimiModelList(key)
  {
    Text.TrimIgnoresLeadingWhitespace(w, key);
  }

  // ----------------------------------------------------------------- attempts

  /** What the SDK call produced: a completion's message content, or a thrown error. */
  datatype Reply =
    | Completed(content: Option<string>)
    | Raised(status: Option<int>, message: string)  // `message` "" stands for an absent message

  /** The outcome of `attemptGeneration`: the parsed value, or the error it throws. */
  datatype Attempt<T> = Parsed(value: T) | Failed(status: Option<int>, message: string)

  const NoContentMessage := "No content generated"
  const ParseFailureMessage := "Failed to parse AI response as JSON"

  /** `attemptGeneration`: one request, then span extraction and `JSON.parse`. */
  function AttemptGeneration<T>(call: (Endpoint, string, bool) -> Reply, parse: string -> Option<T>,
                                endpoint: Endpoint, model: string, jsonMode: bool): (r: Attempt<T>)
    ensures r.Parsed? <==>
      && call(endpoint, model, jsonMode).Completed?
      && call(endpoint, model, jsonMode).content.Some?
      && call(endpoint, model, jsonMode).content.value != ""
      && parse(JsonSpan.Extract(call(endpoint, model, jsonMode).content.value)).Some?
    ensures r.Parsed? ==>
      parse(JsonSpan.Extract(call(endpoint, model, jsonMode).content.value)) == Some(r.value)
    ensures (&& call(endpoint, model, jsonMode).Completed?
             && (call(endpoint, model, jsonMode).content.None? || call(endpoint, model, jsonMode).content.value == ""))
        ==> r == Failed(None, NoContentMessage)
    ensures (&& call(endpoint, model, jsonMode).Completed?
             && call(endpoint, model, jsonMode).content.Some? && call(endpoint, model, jsonMode).content.value != ""
             && parse(JsonSpan.Extract(call(endpoint, model, jsonMode).content.value)).None?)
        ==> r == Failed(None, ParseFailureMessage)
    ensures r.Failed? && call(endpoint, model, jsonMode).Raised? ==>
      r.status == call(endpoint, model, jsonMode).status && r.message == call(endpoint, model, jsonMode).message
  {
    match call(endpoint, model, jsonMode)
    case Raised(status, message) => Failed(status, message)
    case Completed(content) =>
      if content.None? || content.value == "" then Failed(None, NoContentMessage)
      else match parse(JsonSpan.Extract(content.value))
        case Some(v) => Parsed(v)
        case None => Failed(None, ParseFailureMessage)
  }

  /**
   * Read through the regular-expression semantics: when the content has a
   * match of `\{[\s\S]*\}`, the attempt parses exactly the leftmost-longest one.
   */
  lemma AttemptParsesRegexMatch<T>(call: (Endpoint, string, bool) -> Reply, parse: string -> Option<T>,
                                   endpoint: Endpoint, model: string, jsonMode: bool, i: nat, j: nat)
    requires call(endpoint, model, jsonMode).Completed? && call(endpoint, model, jsonMode).content.Some?
    requires JsonSpan.LeftmostLongest(call(endpoint, model, jsonMode).content.value, i, j)
    ensures var c := call(endpoint, model, jsonMode).content.value;
      AttemptGeneration(call, parse, endpoint, model, jsonMode)
      == if parse(c[i..j]).Some? then Parsed(parse(c[i..j]).value) else Failed(None, ParseFailureMessage)
  {
    var c := call(endpoint, model, jsonMode).content.value;
    JsonSpan.ExtractFollowsRegex(c);
    var span := JsonSpan.FindSpan(c).value;
    assert JsonSpan.Matches(c, span.start, span.end) && JsonSpan.Matches(c, i, j);
    assert span.start == i && span.end == j;
  }

  /** Content with no match of the pattern is parsed whole. */
  lemma AttemptParsesWholeWithoutMatch<T>(call: (Endpoint, string, bool) -> Reply, parse: string -> Option<T>,
                                          endpoint: Endpoint, model: string, jsonMode: bool)
    requires call(endpoint, model, jsonMode).Completed? && call(endpoint, model, jsonMode).content.Some?
    requires call(endpoint, model, jsonMode).content.value != ""
    requires forall i: nat, j: nat :: !JsonSpan.Matches(call(endpoint, model, jsonMode).content.value, i, j)
    ensures var c := call(endpoint, model, jsonMode).content.value;
      AttemptGeneration(call, parse, endpoint, model, jsonMode)
      == if parse(c).Some? then Parsed(parse(c).value) else Failed(None, ParseFailureMessage)
  {
    JsonSpan.ExtractFollowsRegex(call(endpoint, model, jsonMode).content.value);
  }

  /** `attemptGeneration` over the given network and parser, as one function. */
  function Attempts<T>(call: (Endpoint, string, bool) -> Reply, parse: string -> Option<T>)
    : (Endpoint, string, bool) -> Attempt<T>
  {
    (endpoint: Endpoint, model: string, jsonMode: bool) => AttemptGeneration(call, parse, endpoint, model, jsonMode)
  }

  /** `error?.message || "Unknown error"`. */
  function ErrorText(message: string): (r: string)
    ensures r != ""
    ensures message != "" ==> r == message
    ensures message == "" ==> r == "Unknown error"
  {
    if message == "" then "Unknown error" else message
  }

  /** One request made to the oracle. */
  datatype Call = Call(endpoint: Endpoint, model: string, jsonMode: bool)

  /** One entry of the diagnostic error log. */
  datatype ErrorEntry = ErrorEntry(model: string, error: string)

  /** The parsed result together with the `modelUsed` field spread over it. */
  datatype Generation<T> = Generation(payload: T, modelUsed: string)

  // --------------------------------------------------------------- Kimi phase

  /** The `modelUsed` and log name of a Kimi model. */
  function KimiLabel(model: string): string {
    "kimi:" + model
  }

  /** The only status that stops the Kimi loop. */
  const KimiAuthStatus := 401

  datatype KimiStop<T> = KimiReturned(gen: Generation<T>) | KimiAuthFailed | KimiRanOut

  datatype KimiRun<T> = KimiRun(stop: KimiStop<T>, calls: seq<Call>, errors: seq<ErrorEntry>)

  /** The `for (const model of modelsToTry)` loop over the Kimi models. */
  function KimiLoop<T>(attempt: (Endpoint, string, bool) -> Attempt<T>,
                       endpoint: Endpoint, models: seq<string>): (r: KimiRun<T>)
    ensures |r.errors| <= |r.calls| <= |models|
    ensures r.stop.KimiAuthFailed? ==> |r.errors| > 0
    decreases |models|
  {
    if models == [] then KimiRun(KimiRanOut, [], [])
    else
      var model := models[0];
      var c := Call(endpoint, model, true);
      match attempt(endpoint, model, true)
      case Parsed(v) => KimiRun(KimiReturned(Generation(v, KimiLabel(model))), [c], [])
      case Failed(status, message) =>
        var e := ErrorEntry(KimiLabel(model), ErrorText(message));
        if status == Some(KimiAuthStatus) then KimiRun(KimiAuthFailed, [c], [e])
        else
          var rest := KimiLoop(attempt, endpoint, models[1..]);
          KimiRun(rest.stop, [c] + rest.calls, [e] + rest.errors)
  }

  /** The Kimi loop requests the models in list order, one JSON-mode request each. */
  lemma {:induction false} KimiLoopRequests<T>(attempt: (Endpoint, string, bool) -> Attempt<T>,
                                               endpoint: Endpoint, models: seq<string>)
    ensures var r := KimiLoop(attempt, endpoint, models);
      forall i :: 0 <= i < |r.calls| ==> r.calls[i] == Call(endpoint, models[i], true)
    decreases |models|
  {
    if models != [] {
      var first := attempt(endpoint, models[0], true);
      if first.Failed? && first.status != Some(KimiAuthStatus) {
        KimiLoopRequests(attempt, endpoint, models[1..]);
        var rest := KimiLoop(attempt, endpoint, models[1..]);
        var r := KimiLoop(attempt, endpoint, models);
        assert r.calls == [Call(endpoint, models[0], true)] + rest.calls;
        forall i | 0 < i < |r.calls| ensures r.calls[i] == Call(endpoint, models[i], true) {
          assert r.calls[i] == rest.calls[i - 1];
          assert models[1..][i - 1] == models[i];
        }
      }
    }
  }

  /** Running out of Kimi models means every one was tried, and a return carries the last model tried. */
  lemma {:induction false} KimiLoopStops<T>(attempt: (Endpoint, string, bool) -> Attempt<T>,
                                            endpoint: Endpoint, models: seq<string>)
    ensures var r := KimiLoop(attempt, endpoint, models);
      && (r.stop.KimiRanOut? ==> |r.calls| == |models|)
      && (r.stop.KimiReturned? ==> r.stop.gen.modelUsed == KimiLabel(models[|r.calls| - 1]))
    decreases |models|
  {
    if models != [] {
      var first := attempt(endpoint, models[0], true);
      if first.Failed? && first.status != Some(KimiAuthStatus) {
        KimiLoopStops(attempt, endpoint, models[1..]);
        var rest := KimiLoop(attempt, endpoint, models[1..]);
        var r := KimiLoop(attempt, endpoint, models);
        assert |r.calls| == 1 + |rest.calls|;
        if r.stop.KimiReturned? {
          assert models[1..][|rest.calls| - 1] == models[|r.calls| - 1];
        }
      }
    }
  }

  /**
   * The Kimi loop requests the models in list order, one JSON-mode request
   * each; running out means every model was tried, and a return carries the
   * last model tried.
   */
  lemma {:induction false} KimiLoopCalls<T>(attempt: (Endpoint, string, bool) -> Attempt<T>,
                                            endpoint: Endpoint, models: seq<string>)
    ensures var r := KimiLoop(attempt, endpoint, models);
      && (forall i :: 0 <= i < |r.calls| ==> r.calls[i] == Call(endpoint, models[i], true))
      && (r.stop.KimiRanOut? ==> |r.calls| == |models|)
      && (r.stop.KimiReturned? ==> r.stop.gen.modelUsed == KimiLabel(models[|r.calls| - 1]))
  {
    KimiLoopRequests(attempt, endpoint, models);
    KimiLoopStops(attempt, endpoint, models);
  }

  /** The Kimi loop logs `kimi:<model>` with that model's error text once per failed model, in list order. */
  lemma {:induction false} KimiLoopLog<T>(attempt: (Endpoint, string, bool) -> Attempt<T>,
                                          endpoint: Endpoint, models: seq<string>)
    ensures var r := KimiLoop(attempt, endpoint, models);
      && |r.errors| == |r.calls| - (if r.stop.KimiReturned? then 1 else 0)
      && (forall i :: 0 <= i < |r.errors| ==>
            && attempt(endpoint, models[i], true).Failed?
            && r.errors[i] == ErrorEntry(KimiLabel(models[i]), ErrorText(attempt(endpoint, models[i], true).message)))
    decreases |models|
  {
    if models != [] {
      var first := attempt(endpoint, models[0], true);
      if first.Failed? && first.status != Some(KimiAuthStatus) {
        KimiLoopLog(attempt, endpoint, models[1..]);
        var rest := KimiLoop(attempt, endpoint, models[1..]);
        var r := KimiLoop(attempt, endpoint, models);
        assert r.errors == [ErrorEntry(KimiLabel(models[0]), ErrorText(first.message))] + rest.errors;
        forall i | 0 < i < |r.errors|
          ensures attempt(endpoint, models[i], true).Failed?
          ensures r.errors[i] == ErrorEntry(KimiLabel(models[i]), ErrorText(attempt(endpoint, models[i], true).message))
        {
          assert r.errors[i] == rest.errors[i - 1];
          assert models[1..][i - 1] == models[i];
        }
      }
    }
  }

  /** Every Kimi model before `k` failed with a status other than 401. */
  ghost predicate KimiFailedBefore<T>(attempt: (Endpoint, string, bool) -> Attempt<T>,
                                      endpoint: Endpoint, models: seq<string>, k: nat)
    requires k <= |models|
  {
    forall j :: 0 <= j < k ==>
      && attempt(endpoint, models[j], true).Failed?
      && attempt(endpoint, models[j], true).status != Some(KimiAuthStatus)
  }

  /** The first Kimi model that succeeds is returned, after exactly one attempt per earlier model. */
  lemma {:induction false} KimiLoopFirstSuccess<T>(attempt: (Endpoint, string, bool) -> Attempt<T>,
                                                   endpoint: Endpoint, models: seq<string>, k: nat)
    requires k < |models| && KimiFailedBefore(attempt, endpoint, models, k)
    requires attempt(endpoint, models[k], true).Parsed?
    ensures KimiLoop(attempt, endpoint, models).stop == KimiReturned(Generation(
      attempt(endpoint, models[k], true).value, KimiLabel(models[k])))
    ensures |KimiLoop(attempt, endpoint, models).calls| == k + 1
    ensures |KimiLoop(attempt, endpoint, models).errors| == k
    decreases k
  {
    if k > 0 {
      assert KimiFailedBefore(attempt, endpoint, models[1..], k - 1) by {
        forall j | 0 <= j < k - 1 ensures models[1..][j] == models[j + 1] {}
      }
      KimiLoopFirstSuccess(attempt, endpoint, models[1..], k - 1);
    }
  }

  /** A 401 on the `k`-th Kimi model ends the loop there with `k + 1` logged failures. */
  lemma {:induction false} KimiLoopAuthStop<T>(attempt: (Endpoint, string, bool) -> Attempt<T>,
                                               endpoint: Endpoint, models: seq<string>, k: nat)
    requires k < |models| && KimiFailedBefore(attempt, endpoint, models, k)
    requires attempt(endpoint, models[k], true).Failed?
    requires attempt(endpoint, models[k], true).status == Some(KimiAuthStatus)
    ensures KimiLoop(attempt, endpoint, models).stop == KimiAuthFailed
    ensures |KimiLoop(attempt, endpoint, models).calls| == k + 1
    ensures |KimiLoop(attempt, endpoint, models).errors| == k + 1
    ensures KimiLoop(attempt, endpoint, models).errors[k].error
         == ErrorText(attempt(endpoint, models[k], true).message)
    decreases k
  {
    if k > 0 {
      assert KimiFailedBefore(attempt, endpoint, models[1..], k - 1) by {
        forall j | 0 <= j < k - 1 ensures models[1..][j] == models[j + 1] {}
      }
      KimiLoopAuthStop(attempt, endpoint, models[1..], k - 1);
      var rest := KimiLoop(attempt, endpoint, models[1..]);
      var first := attempt(endpoint, models[0], true);
      assert first.Failed? && first.status != Some(KimiAuthStatus);
      assert KimiLoop(attempt, endpoint, models).errors
          == [ErrorEntry(KimiLabel(models[0]), ErrorText(first.message))] + rest.errors;
      assert models[1..][k - 1] == models[k];
    }
  }

  // --------------------------------------------------------- OpenRouter phase

  /** A 400 status, or "400" anywhere in the message, marks a model that may reject JSON mode. */
  predicate IsProviderError(status: Option<int>, message: string) {
    status == Some(400) || Text.Includes(message, "400")
  }

  /** The statuses that abort the OpenRouter phase. */
  predicate IsAuthError(status: Option<int>) {
    status == Some(401) || status == Some(403)
  }

  /** The rate-limit classification; it is logged but steers nothing. */
  predicate IsRateLimit(status: Option<int>, errorMessage: string) {
    status == Some(429) || Text.Includes(errorMessage, "429") || Text.Includes(errorMessage, "limit")
  }

  /** The outcome of one OpenRouter model: a result, or one log entry. */
  datatype ModelTry<T> =
    | Won(gen: Generation<T>, calls: seq<Call>)
    | Lost(entry: ErrorEntry, auth: bool, calls: seq<Call>)

  /** One model of the OpenRouter loop: a JSON-mode attempt and, on a provider error, one plain retry. */
  function TryOpenRouterModel<T>(attempt: (Endpoint, string, bool) -> Attempt<T>,
                                 model: string): (r: ModelTry<T>)
    ensures 1 <= |r.calls| <= 2 && r.calls[0] == Call(OpenRouter, model, true)
    ensures |r.calls| == 2 ==> r.calls[1] == Call(OpenRouter, model, false)
    ensures r.Won? ==> r.gen.modelUsed == model
    ensures attempt(OpenRouter, model, true).Parsed? ==>
      r == Won(Generation(attempt(OpenRouter, model, true).value, model), [Call(OpenRouter, model, true)])
    ensures r.Lost? ==> r.entry.model == model
    ensures r.Lost? ==>
      && attempt(OpenRouter, model, true).Failed?
      && r.entry.error == ErrorText(attempt(OpenRouter, model, true).message)
      && r.auth == IsAuthError(attempt(OpenRouter, model, true).status)
  {
    var first := attempt(OpenRouter, model, true);
    if first.Parsed? then Won(Generation(first.value, model), [Call(OpenRouter, model, true)])
    else
      var provider := IsProviderError(first.status, first.message);
      var calls := if provider then [Call(OpenRouter, model, true), Call(OpenRouter, model, false)]
                   else [Call(OpenRouter, model, true)];
      var retry := if provider then attempt(OpenRouter, model, false) else first;
      if provider && retry.Parsed? then Won(Generation(retry.value, model), calls)
      else Lost(ErrorEntry(model, ErrorText(first.message)), IsAuthError(first.status), calls)
  }

  /**
   * A provider error earns exactly one plain-mode retry. A successful retry
   * returns the bare model name; a failed one logs the first attempt's message
   * and classifies by the first attempt's status.
   */
  lemma PlainModeRetry<T>(attempt: (Endpoint, string, bool) -> Attempt<T>, model: string)
    requires attempt(OpenRouter, model, true).Failed?
    requires IsProviderError(attempt(OpenRouter, model, true).status,
                             attempt(OpenRouter, model, true).message)
    ensures TryOpenRouterModel(attempt, model).calls
         == [Call(OpenRouter, model, true), Call(OpenRouter, model, false)]
    ensures attempt(OpenRouter, model, false).Parsed? ==>
      TryOpenRouterModel(attempt, model).Won?
      && TryOpenRouterModel(attempt, model).gen
         == Generation(attempt(OpenRouter, model, false).value, model)
    ensures attempt(OpenRouter, model, false).Failed? ==>
      TryOpenRouterModel(attempt, model)
      == Lost(ErrorEntry(model, ErrorText(attempt(OpenRouter, model, true).message)),
              IsAuthError(attempt(OpenRouter, model, true).status),
              [Call(OpenRouter, model, true), Call(OpenRouter, model, false)])
  {
  }

  /** Without a provider error there is no retry. */
  lemma NoRetryOtherwise<T>(attempt: (Endpoint, string, bool) -> Attempt<T>, model: string)
    requires attempt(OpenRouter, model, true).Failed?
    requires !IsProviderError(attempt(OpenRouter, model, true).status,
                              attempt(OpenRouter, model, true).message)
    ensures TryOpenRouterModel(attempt, model)
      == Lost(ErrorEntry(model, ErrorText(attempt(OpenRouter, model, true).message)),
              IsAuthError(attempt(OpenRouter, model, true).status),
              [Call(OpenRouter, model, true)])
  {
  }

  datatype RouterStop<T> = RouterReturned(gen: Generation<T>) | RouterAuthFailed(error: string) | RouterRanOut

  datatype RouterRun<T> = RouterRun(stop: RouterStop<T>, calls: seq<Call>, errors: seq<ErrorEntry>)

  /** The OpenRouter loop: every non-authentication failure moves on to the next model. */
  function RouterLoop<T>(attempt: (Endpoint, string, bool) -> Attempt<T>,
                         models: seq<string>): (r: RouterRun<T>)
    ensures |r.errors| <= |models| && |r.calls| <= 2 * |models|
    ensures forall i :: 0 <= i < |r.calls| ==> r.calls[i].endpoint == OpenRouter
    decreases |models|
  {
    if models == [] then RouterRun(RouterRanOut, [], [])
    else match TryOpenRouterModel(attempt, models[0])
      case Won(g, cs) => RouterRun(RouterReturned(g), cs, [])
      case Lost(e, auth, cs) =>
        if auth then RouterRun(RouterAuthFailed(e.error), cs, [e])
        else
          var rest := RouterLoop(attempt, models[1..]);
          RouterRun(rest.stop, cs + rest.calls, [e] + rest.errors)
  }

  /** The log is, entry for entry, what each tried model's lost attempt produced. */
  lemma {:induction false} RouterLoopEntries<T>(attempt: (Endpoint, string, bool) -> Attempt<T>,
                                                models: seq<string>)
    ensures var r := RouterLoop(attempt, models);
      forall i :: 0 <= i < |r.errors| ==>
        TryOpenRouterModel(attempt, models[i]).Lost? && r.errors[i] == TryOpenRouterModel(attempt, models[i]).entry
    decreases |models|
  {
    if models != [] {
      var t := TryOpenRouterModel(attempt, models[0]);
      if t.Lost? && !t.auth {
        RouterLoopEntries(attempt, models[1..]);
        var rest := RouterLoop(attempt, models[1..]);
        var r := RouterLoop(attempt, models);
        assert r.errors == [t.entry] + rest.errors;
        forall i | 0 < i < |r.errors|
          ensures TryOpenRouterModel(attempt, models[i]).Lost? && r.errors[i] == TryOpenRouterModel(attempt, models[i]).entry
        {
          assert r.errors[i] == rest.errors[i - 1];
          assert models[1..][i - 1] == models[i];
        }
      }
    }
  }

  /** How each way of leaving the OpenRouter loop relates to the length of its log. */
  lemma {:induction false} RouterLoopStops<T>(attempt: (Endpoint, string, bool) -> Attempt<T>,
                                              models: seq<string>)
    ensures var r := RouterLoop(attempt, models);
      && (r.stop.RouterRanOut? ==> |r.errors| == |models|)
      && (r.stop.RouterAuthFailed? ==>
            |r.errors| > 0 && r.stop.error == r.errors[|r.errors| - 1].error)
      && (r.stop.RouterReturned? ==> |r.errors| < |models| && r.stop.gen.modelUsed == models[|r.errors|])
    decreases |models|
  {
    if models != [] {
      var t := TryOpenRouterModel(attempt, models[0]);
      if t.Lost? && !t.auth {
        RouterLoopStops(attempt, models[1..]);
        var rest := RouterLoop(attempt, models[1..]);
        var r := RouterLoop(attempt, models);
        assert r.errors == [t.entry] + rest.errors;
        if r.stop.RouterReturned? {
          assert models[1..][|rest.errors|] == models[|r.errors|];
        }
        if r.stop.RouterAuthFailed? {
          assert r.errors[|r.errors| - 1] == rest.errors[|rest.errors| - 1];
        }
      }
    }
  }

  /**
   * The log has one entry per model tried, in catalogue order, each the
   * entry that model's lost attempt produced; running out means every model
   * was tried, an authentication stop reports the last logged error, and a
   * returned generation carries the name of the next model after the logged
   * ones.
   */
  lemma {:induction false} RouterLoopShape<T>(attempt: (Endpoint, string, bool) -> Attempt<T>, models: seq<string>)
    ensures var r := RouterLoop(attempt, models);
      && (forall i :: 0 <= i < |r.errors| ==> r.errors[i].model == models[i])
      && (forall i :: 0 <= i < |r.errors| ==>
            TryOpenRouterModel(attempt, models[i]).Lost? && r.errors[i] == TryOpenRouterModel(attempt, models[i]).entry)
      && (r.stop.RouterRanOut? ==> |r.errors| == |models|)
      && (r.stop.RouterAuthFailed? ==>
            |r.errors| > 0 && r.stop.error == r.errors[|r.errors| - 1].error)
      && (r.stop.RouterReturned? ==> |r.errors| < |models| && r.stop.gen.modelUsed == models[|r.errors|])
  {
    RouterLoopEntries(attempt, models);
    RouterLoopStops(attempt, models);
    var r := RouterLoop(attempt, models);
    forall i | 0 <= i < |r.errors| ensures r.errors[i].model == models[i] {
      assert r.errors[i] == TryOpenRouterModel(attempt, models[i]).entry;
    }
  }

  /**
   * The loop body exactly as the source spells it, index and all: the
   * `continue` for recoverable failures, the `break` on the last model, and
   * the fall-through to the next iteration otherwise.
   */
  function RouterLoopAsWritten<T>(attempt: (Endpoint, string, bool) -> Attempt<T>,
                                  models: seq<string>, i: nat): (r: RouterRun<T>)
    requires i <= |models|
    ensures |r.errors| <= |models| - i
    decreases |models| - i
  {
    if i == |models| then RouterRun(RouterRanOut, [], [])
    else
      var model := models[i];
      var first := attempt(OpenRouter, model, true);
      if first.Parsed? then RouterRun(RouterReturned(Generation(first.value, model)), [Call(OpenRouter, model, true)], [])
      else
        var isProviderError := IsProviderError(first.status, first.message);
        var retry := if isProviderError then attempt(OpenRouter, model, false) else first;
        var calls := [Call(OpenRouter, model, true)] + (if isProviderError then [Call(OpenRouter, model, false)] else []);
        if isProviderError && retry.Parsed? then RouterRun(RouterReturned(Generation(retry.value, model)), calls, [])
        else
          var errorMessage := ErrorText(first.message);
          var isRateLimit := IsRateLimit(first.status, errorMessage);
          var entry := ErrorEntry(model, errorMessage);
          if IsAuthError(first.status) then RouterRun(RouterAuthFailed(errorMessage), calls, [entry])
          else if (isRateLimit || isProviderError || first.status == Some(404)) && i < |models| - 1 then
            var rest := RouterLoopAsWritten(attempt, models, i + 1);           // continue
            RouterRun(rest.stop, calls + rest.calls, [entry] + rest.errors)
          else if i == |models| - 1 then RouterRun(RouterRanOut, calls, [entry])  // break
          else
            var rest := RouterLoopAsWritten(attempt, models, i + 1);           // end of the body
            RouterRun(rest.stop, calls + rest.calls, [entry] + rest.errors)
  }

  /** One iteration of the literal loop is one `TryOpenRouterModel` followed by the rest of the loop. */
  lemma AsWrittenStep<T>(attempt: (Endpoint, string, bool) -> Attempt<T>,
                         models: seq<string>, i: nat)
    requires i < |models|
    ensures RouterLoopAsWritten(attempt, models, i) ==
      match TryOpenRouterModel(attempt, models[i])
      case Won(g, cs) => RouterRun(RouterReturned(g), cs, [])
      case Lost(e, auth, cs) =>
        if auth then RouterRun(RouterAuthFailed(e.error), cs, [e])
        else
          var rest := RouterLoopAsWritten(attempt, models, i + 1);
          RouterRun(rest.stop, cs + rest.calls, [e] + rest.errors)
  {
    var first := attempt(OpenRouter, models[i], true);
    if !first.Parsed? && i == |models| - 1 {
      var cs := TryOpenRouterModel(attempt, models[i]).calls;
      assert RouterLoopAsWritten(attempt, models, i + 1) == RouterRun(RouterRanOut, [], []);
      assert cs + [] == cs;
    }
  }

  /** The recoverable classification changes nothing: the literal loop is the plain one. */
  lemma {:induction false} AsWrittenIsRouterLoop<T>(attempt: (Endpoint, string, bool) -> Attempt<T>, models: seq<string>, i: nat)
    requires i <= |models|
    ensures RouterLoopAsWritten(attempt, models, i) == RouterLoop(attempt, models[i..])
    decreases |models| - i
  {
    if i < |models| {
      assert models[i..][0] == models[i];
      assert models[i..][1..] == models[i + 1..];
      AsWrittenStep(attempt, models, i);
      AsWrittenIsRouterLoop(attempt, models, i + 1);
    }
  }

  /** Every OpenRouter model before `k` failed without an authentication status. */
  ghost predicate RouterLostBefore<T>(attempt: (Endpoint, string, bool) -> Attempt<T>,
                                      models: seq<string>, k: nat)
    requires k <= |models|
  {
    forall j :: 0 <= j < k ==>
      TryOpenRouterModel(attempt, models[j]).Lost? && !TryOpenRouterModel(attempt, models[j]).auth
  }

  lemma RouterLostBeforeTail<T>(attempt: (Endpoint, string, bool) -> Attempt<T>,
                                models: seq<string>, k: nat)
    requires 0 < k <= |models| && RouterLostBefore(attempt, models, k)
    ensures RouterLostBefore(attempt, models[1..], k - 1)
  {
    forall j | 0 <= j < k - 1 ensures models[1..][j] == models[j + 1] {}
  }

  /** The first OpenRouter model that wins is returned; each earlier model left one log entry. */
  lemma {:induction false} RouterFirstWin<T>(attempt: (Endpoint, string, bool) -> Attempt<T>,
                                             models: seq<string>, k: nat)
    requires k < |models| && RouterLostBefore(attempt, models, k)
    requires TryOpenRouterModel(attempt, models[k]).Won?
    ensures RouterLoop(attempt, models).stop == RouterReturned(TryOpenRouterModel(attempt, models[k]).gen)
    ensures |RouterLoop(attempt, models).errors| == k
    decreases k
  {
    if k > 0 {
      RouterLostBeforeTail(attempt, models, k);
      RouterFirstWin(attempt, models[1..], k - 1);
    }
  }

  /** The requests the OpenRouter loop makes for `models`, model by model. */
  function TriedCalls<T>(attempt: (Endpoint, string, bool) -> Attempt<T>,
                         models: seq<string>): seq<Call>
  {
    if models == [] then [] else TryOpenRouterModel(attempt, models[0]).calls + TriedCalls(attempt, models[1..])
  }

  /**
   * An authentication failure on model `k` aborts: the requests made are
   * exactly those of models `0..k`, so no later model is tried.
   */
  lemma {:induction false} RouterAuthAbort<T>(attempt: (Endpoint, string, bool) -> Attempt<T>,
                                              models: seq<string>, k: nat)
    requires k < |models| && RouterLostBefore(attempt, models, k)
    requires TryOpenRouterModel(attempt, models[k]).Lost? && TryOpenRouterModel(attempt, models[k]).auth
    ensures RouterLoop(attempt, models).stop
         == RouterAuthFailed(TryOpenRouterModel(attempt, models[k]).entry.error)
    ensures |RouterLoop(attempt, models).errors| == k + 1
    ensures RouterLoop(attempt, models).calls == TriedCalls(attempt, models[..k + 1])
    decreases k
  {
    assert models[..k + 1][0] == models[0];
    assert models[..k + 1][1..] == models[1..][..k];
    if k > 0 {
      RouterLostBeforeTail(attempt, models, k);
      RouterAuthAbort(attempt, models[1..], k - 1);
    } else {
      assert models[1..][..0] == [];
    }
  }

  /** When every model fails without an authentication status, every model is logged once. */
  lemma {:induction false} RouterExhausted<T>(attempt: (Endpoint, string, bool) -> Attempt<T>,
                                              models: seq<string>)
    requires RouterLostBefore(attempt, models, |models|)
    ensures RouterLoop(attempt, models).stop == RouterRanOut
    ensures |RouterLoop(attempt, models).errors| == |models|
    ensures models != [] ==>
      RouterLoop(attempt, models).errors[|models| - 1] == TryOpenRouterModel(attempt, models[|models| - 1]).entry
    decreases |models|
  {
    if models != [] {
      RouterLostBeforeTail(attempt, models, |models|);
      RouterExhausted(attempt, models[1..]);
      if |models| > 1 {
        assert models[1..][|models| - 2] == models[|models| - 1];
      }
    }
  }

  // ------------------------------------------------------------ orchestration

  /** The errors `generatePostsWithFallback` throws, each with its own message. */
  datatype Thrown =
    | ClientMissing(message: string)             // from `getAIClient`
    | KimiAuthRejected(lastError: string)        // a 401 from a Kimi model
    | RouterAuthRejected(errorMessage: string)   // a 401 or 403 from OpenRouter
    | Exhausted(lastLogged: Option<string>)      // every model failed

  const KimiAuthPrefix := "Kimi Authentication Failed: "
  const KimiRestartHint := ". Please check your KIMI_API_KEY in .env.local and restart the server."
  const RouterAuthPrefix := "Authentication failed: "
  const ExhaustedPrefix := "All AI models are currently experiencing issues or rate limits. Please try again later. "
  const LastErrorPrefix := "Last error: "

  /** `s` is `prefix` immediately followed by `quoted`, then possibly more. */
  predicate Quotes(s: string, prefix: string, quoted: string) {
    |prefix| + |quoted| <= |s| && s[..|prefix|] == prefix && s[|prefix|..|prefix| + |quoted|] == quoted
  }

  /** The `message` of the thrown `Error`. */
  function Message(t: Thrown): (r: string)
    ensures t.ClientMissing? ==> r == t.message
    ensures t.KimiAuthRejected? ==>
      Quotes(r, KimiAuthPrefix, t.lastError) && r[|KimiAuthPrefix| + |t.lastError|..] == KimiRestartHint
    ensures t.RouterAuthRejected? ==>
      Quotes(r, RouterAuthPrefix, t.errorMessage) && |r| == |RouterAuthPrefix| + |t.errorMessage|
    ensures t.Exhausted? && t.lastLogged.None? ==> r == ExhaustedPrefix
    ensures t.Exhausted? && t.lastLogged.Some? ==>
      Quotes(r, ExhaustedPrefix + LastErrorPrefix, t.lastLogged.value)
      && |r| == |ExhaustedPrefix + LastErrorPrefix| + |t.lastLogged.value|
  {
    match t
    case ClientMissing(message) => message
    case KimiAuthRejected(lastError) => KimiAuthPrefix + lastError + KimiRestartHint
    case RouterAuthRejected(errorMessage) => RouterAuthPrefix + errorMessage
    case Exhausted(lastLogged) =>
      if lastLogged.Some? then ExhaustedPrefix + LastErrorPrefix + lastLogged.value else ExhaustedPrefix
  }

  /** The last logged error, if any: what the exhaustion message quotes. */
  function LastError(errors: seq<ErrorEntry>): (r: Option<string>)
    ensures r.Some? <==> errors != []
  {
    if errors == [] then None else Some(errors[|errors| - 1].error)
  }

  /** One run: the result or the thrown error, every request made, and the error log. */
  datatype Run<T> = Run(result: Result<Generation<T>, Thrown>, calls: seq<Call>, errors: seq<ErrorEntry>)

  /** The Kimi phase: skipped (an empty run that ran out) when no Kimi key is set. */
  function KimiPhase<T>(env: Env, call: (Endpoint, string, bool) -> Reply, parse: string -> Option<T>): (r: KimiRun<T>)
    ensures !IsSet(env.kimiKey) ==> r == KimiRun(KimiRanOut, [], [])
    ensures forall i :: 0 <= i < |r.calls| ==> r.calls[i].endpoint != OpenRouter && r.calls[i].jsonMode
  {
    match GetAIClient(KimiProvider, env)
    case Success(endpoint) =>
      KimiLoopCalls(Attempts(call, parse), endpoint, KimiModelList(env.kimiKey.value));
      KimiLoop(Attempts(call, parse), endpoint, KimiModelList(env.kimiKey.value))
    case Failure(_) => KimiRun(KimiRanOut, [], [])
  }

  /** The `modelUsed` names of Kimi models. */
  function KimiLabels(models: seq<string>): (r: seq<string>)
    ensures |r| == |models| && forall i :: 0 <= i < |models| ==> r[i] == KimiLabel(models[i])
  {
    if models == [] then [] else [KimiLabel(models[0])] + KimiLabels(models[1..])
  }

  /** The number of Kimi models a run may try. */
  function KimiBudget(env: Env): nat {
    if IsSet(env.kimiKey) then |KimiModelList(env.kimiKey.value)| else 0
  }

  /** `generatePostsWithFallback`. */
  function GeneratePostsWithFallback<T>(env: Env, call: (Endpoint, string, bool) -> Reply,
                                        parse: string -> Option<T>): (r: Run<T>)
    ensures |r.calls| <= KimiBudget(env) + 2 * |FreeModels|
  {
    var kimi := KimiPhase(env, call, parse);
    match kimi.stop
    case KimiReturned(g) => Run(Success(g), kimi.calls, kimi.errors)
    case KimiAuthFailed => Run(Failure(KimiAuthRejected(kimi.errors[|kimi.errors| - 1].error)), kimi.calls, kimi.errors)
    case KimiRanOut =>
      match GetAIClient(OpenRouterProvider, env)
      case Failure(message) => Run(Failure(ClientMissing(message)), kimi.calls, kimi.errors)
      case Success(_) => AfterRouter(kimi, RouterLoop(Attempts(call, parse), FreeModels))
  }

  /** The run once both phases have been tried: the logs are concatenated and the router's stop decides. */
  function AfterRouter<T>(kimi: KimiRun<T>, router: RouterRun<T>): Run<T> {
    var calls := kimi.calls + router.calls;
    var errors := kimi.errors + router.errors;
    match router.stop
    case RouterReturned(g) => Run(Success(g), calls, errors)
    case RouterAuthFailed(error) => Run(Failure(RouterAuthRejected(error)), calls, errors)
    case RouterRanOut => Run(Failure(Exhausted(LastError(errors))), calls, errors)
  }

  // ------------------------------------------------------- properties of a run

  /** A successful run names either a free OpenRouter model or a `kimi:` label of a listed Kimi model. */
  lemma ModelUsedInCatalogue<T>(env: Env, call: (Endpoint, string, bool) -> Reply, parse: string -> Option<T>)
    ensures var r := GeneratePostsWithFallback(env, call, parse);
      r.result.Success? ==>
        r.result.value.modelUsed in FreeModels
        || (IsSet(env.kimiKey) && r.result.value.modelUsed in KimiLabels(KimiModelList(env.kimiKey.value)))
  {
    var kimi := KimiPhase(env, call, parse);
    RunAfterKimiStop(env, call, parse);
    if kimi.stop.KimiReturned? {
      KimiPhaseIsLoop(env, call, parse);
      var ms := KimiModelList(env.kimiKey.value);
      KimiLoopCalls(Attempts(call, parse), GetAIClient(KimiProvider, env).value, ms);
      assert KimiLabels(ms)[|kimi.calls| - 1] == kimi.stop.gen.modelUsed;
    } else if kimi.stop.KimiRanOut? && IsSet(env.openRouterKey) {
      RouterLoopShape(Attempts(call, parse), FreeModels);
    }
  }

  /** With a Kimi key, the Kimi phase is the Kimi loop over the sniffed client and list. */
  lemma KimiPhaseIsLoop<T>(env: Env, call: (Endpoint, string, bool) -> Reply, parse: string -> Option<T>)
    requires IsSet(env.kimiKey)
    ensures GetAIClient(KimiProvider, env).Success?
    ensures KimiPhase(env, call, parse)
         == KimiLoop(Attempts(call, parse), GetAIClient(KimiProvider, env).value, KimiModelList(env.kimiKey.value))
  {
  }

  /** A Kimi phase that returned or hit a 401 decides the run on its own. */
  lemma RunAfterKimiStop<T>(env: Env, call: (Endpoint, string, bool) -> Reply, parse: string -> Option<T>)
    ensures var kimi := KimiPhase(env, call, parse);
      var r := GeneratePostsWithFallback(env, call, parse);
      && (!kimi.stop.KimiRanOut? ==> r.calls == kimi.calls && r.errors == kimi.errors)
      && (kimi.stop.KimiReturned? ==> r.result == Success(kimi.stop.gen))
      && (kimi.stop.KimiAuthFailed? ==>
            r.result == Failure(KimiAuthRejected(kimi.errors[|kimi.errors| - 1].error)))
  {
  }

  /**
   * With a Kimi key, the first Kimi model whose attempt parses is returned as
   * `kimi:<model>`; every earlier model was requested exactly once, in order,
   * and logged once.
   */
  lemma KimiFirstSuccessReturns<T>(env: Env, call: (Endpoint, string, bool) -> Reply,
                                   parse: string -> Option<T>, k: nat)
    requires IsSet(env.kimiKey)
    requires var endpoint, models := GetAIClient(KimiProvider, env).value, KimiModelList(env.kimiKey.value);
      && k < |models|
      && KimiFailedBefore(Attempts(call, parse), endpoint, models, k)
      && AttemptGeneration(call, parse, endpoint, models[k], true).Parsed?
    ensures var run := GeneratePostsWithFallback(env, call, parse);
      var endpoint, models := GetAIClient(KimiProvider, env).value, KimiModelList(env.kimiKey.value);
      && run.result == Success(Generation(AttemptGeneration(call, parse, endpoint, models[k], true).value,
                                          KimiLabel(models[k])))
      && |run.calls| == k + 1
      && (forall i :: 0 <= i <= k ==> run.calls[i] == Call(endpoint, models[i], true))
      && |run.errors| == k
  {
    var attempt, endpoint, models := Attempts(call, parse), GetAIClient(KimiProvider, env).value, KimiModelList(env.kimiKey.value);
    KimiPhaseIsLoop(env, call, parse);
    RunAfterKimiStop(env, call, parse);
    KimiLoopFirstSuccess(attempt, endpoint, models, k);
    KimiLoopCalls(attempt, endpoint, models);
  }

  /**
   * A 401 from a Kimi model ends the run with the Kimi authentication message
   * built from that model's error, and OpenRouter is never requested. Any
   * other status, 403 included, moves on to the next Kimi model.
   */
  lemma KimiAuthAborts<T>(env: Env, call: (Endpoint, string, bool) -> Reply,
                          parse: string -> Option<T>, k: nat)
    requires IsSet(env.kimiKey)
    requires var endpoint, models := GetAIClient(KimiProvider, env).value, KimiModelList(env.kimiKey.value);
      && k < |models|
      && KimiFailedBefore(Attempts(call, parse), endpoint, models, k)
      && AttemptGeneration(call, parse, endpoint, models[k], true).Failed?
      && AttemptGeneration(call, parse, endpoint, models[k], true).status == Some(KimiAuthStatus)
    ensures var run := GeneratePostsWithFallback(env, call, parse);
      var endpoint, models := GetAIClient(KimiProvider, env).value, KimiModelList(env.kimiKey.value);
      && run.result == Failure(KimiAuthRejected(ErrorText(AttemptGeneration(call, parse, endpoint, models[k], true).message)))
      && |run.calls| == k + 1
      && (forall i :: 0 <= i < |run.calls| ==> run.calls[i].endpoint != OpenRouter)
  {
    var attempt, endpoint, models := Attempts(call, parse), GetAIClient(KimiProvider, env).value, KimiModelList(env.kimiKey.value);
    KimiPhaseIsLoop(env, call, parse);
    RunAfterKimiStop(env, call, parse);
    KimiLoopAuthStop(attempt, endpoint, models, k);
  }

  /**
   * The text thrown on a Kimi 401: "Kimi Authentication Failed: ", then the
   * model's logged error, then the restart hint.
   */
  lemma KimiAuthRunMessage<T>(env: Env, call: (Endpoint, string, bool) -> Reply,
                              parse: string -> Option<T>, k: nat)
    requires IsSet(env.kimiKey)
    requires var endpoint, models := GetAIClient(KimiProvider, env).value, KimiModelList(env.kimiKey.value);
      && k < |models|
      && KimiFailedBefore(Attempts(call, parse), endpoint, models, k)
      && AttemptGeneration(call, parse, endpoint, models[k], true).Failed?
      && AttemptGeneration(call, parse, endpoint, models[k], true).status == Some(KimiAuthStatus)
    ensures var result := GeneratePostsWithFallback(env, call, parse).result;
      var endpoint, models := GetAIClient(KimiProvider, env).value, KimiModelList(env.kimiKey.value);
      var e := ErrorText(AttemptGeneration(call, parse, endpoint, models[k], true).message);
      && result.Failure?
      && var m := Message(result.error);
         Quotes(m, KimiAuthPrefix, e) && m[|KimiAuthPrefix| + |e|..] == KimiRestartHint
  {
    KimiAuthAborts(env, call, parse, k);
  }

  /** After the Kimi phase ran out, a missing OpenRouter key is thrown before any OpenRouter request. */
  lemma OpenRouterKeyMissingThrows<T>(env: Env, call: (Endpoint, string, bool) -> Reply, parse: string -> Option<T>)
    requires KimiPhase(env, call, parse).stop.KimiRanOut? && !IsSet(env.openRouterKey)
    ensures var run := GeneratePostsWithFallback(env, call, parse);
      && run.result == Failure(ClientMissing(OpenRouterKeyMissing))
      && run.calls == KimiPhase(env, call, parse).calls
  {
  }

  /**
   * After the Kimi phase ran out, the first free model that wins is returned
   * under its bare name; each earlier free model added one log entry.
   */
  lemma RouterWinReturns<T>(env: Env, call: (Endpoint, string, bool) -> Reply, parse: string -> Option<T>, k: nat)
    requires KimiPhase(env, call, parse).stop.KimiRanOut? && IsSet(env.openRouterKey)
    requires k < |FreeModels| && RouterLostBefore(Attempts(call, parse), FreeModels, k)
    requires TryOpenRouterModel(Attempts(call, parse), FreeModels[k]).Won?
    ensures var run, t := GeneratePostsWithFallback(env, call, parse), TryOpenRouterModel(Attempts(call, parse), FreeModels[k]);
      && run.result == Success(t.gen)
      && run.result.value.modelUsed == FreeModels[k]
      && |run.errors| == |KimiPhase(env, call, parse).errors| + k
  {
    RouterFirstWin(Attempts(call, parse), FreeModels, k);
    RouterLoopShape(Attempts(call, parse), FreeModels);
    RunAfterKimi(env, call, parse);
  }

  /**
   * An OpenRouter 401 or 403 (on the JSON-mode attempt) throws
   * "Authentication failed: ..." at once; the requests made are the Kimi
   * phase's and those of free models `0..k` only.
   */
  lemma RouterAuthAborts<T>(env: Env, call: (Endpoint, string, bool) -> Reply, parse: string -> Option<T>, k: nat)
    requires KimiPhase(env, call, parse).stop.KimiRanOut? && IsSet(env.openRouterKey)
    requires k < |FreeModels| && RouterLostBefore(Attempts(call, parse), FreeModels, k)
    requires var t := TryOpenRouterModel(Attempts(call, parse), FreeModels[k]); t.Lost? && t.auth
    ensures var run, t := GeneratePostsWithFallback(env, call, parse), TryOpenRouterModel(Attempts(call, parse), FreeModels[k]);
      && run.result == Failure(RouterAuthRejected(t.entry.error))
      && run.calls == KimiPhase(env, call, parse).calls + TriedCalls(Attempts(call, parse), FreeModels[..k + 1])
  {
    RouterAuthAbort(Attempts(call, parse), FreeModels, k);
    RunAfterKimi(env, call, parse);
  }

  /** The text thrown on an OpenRouter 401 or 403: "Authentication failed: " and that model's logged error. */
  lemma RouterAuthRunMessage<T>(env: Env, call: (Endpoint, string, bool) -> Reply, parse: string -> Option<T>, k: nat)
    requires KimiPhase(env, call, parse).stop.KimiRanOut? && IsSet(env.openRouterKey)
    requires k < |FreeModels| && RouterLostBefore(Attempts(call, parse), FreeModels, k)
    requires var t := TryOpenRouterModel(Attempts(call, parse), FreeModels[k]); t.Lost? && t.auth
    ensures var result := GeneratePostsWithFallback(env, call, parse).result;
      && result.Failure?
      && Message(result.error) == RouterAuthPrefix + ErrorText(AttemptGeneration(call, parse, OpenRouter, FreeModels[k], true).message)
  {
    RouterAuthAborts(env, call, parse, k);
  }

  /** The run's outcome once the Kimi phase ran out and an OpenRouter client exists. */
  lemma RunAfterKimi<T>(env: Env, call: (Endpoint, string, bool) -> Reply, parse: string -> Option<T>)
    requires KimiPhase(env, call, parse).stop.KimiRanOut? && IsSet(env.openRouterKey)
    ensures GeneratePostsWithFallback(env, call, parse)
         == AfterRouter(KimiPhase(env, call, parse), RouterLoop(Attempts(call, parse), FreeModels))
  {
  }

  /**
   * When every free model fails without an authentication status, the run
   * throws the fixed exhaustion text followed by the last model's logged error,
   * which is its JSON-mode attempt's message.
   */
  lemma AllModelsExhausted<T>(env: Env, call: (Endpoint, string, bool) -> Reply, parse: string -> Option<T>)
    requires KimiPhase(env, call, parse).stop.KimiRanOut? && IsSet(env.openRouterKey)
    requires RouterLostBefore(Attempts(call, parse), FreeModels, |FreeModels|)
    ensures var run, last := GeneratePostsWithFallback(env, call, parse), FreeModels[|FreeModels| - 1];
      && run.result == Failure(Exhausted(Some(ErrorText(AttemptGeneration(call, parse, OpenRouter, last, true).message))))
      && |run.errors| == |KimiPhase(env, call, parse).errors| + |FreeModels|
  {
    ExhaustedAfterKimi(KimiPhase(env, call, parse), Attempts(call, parse), FreeModels);
    RunAfterKimi(env, call, parse);
  }

  /**
   * The text thrown when every free model failed: the fixed exhaustion
   * sentence, "Last error: ", and the last free model's JSON-mode message.
   */
  lemma ExhaustedRunMessage<T>(env: Env, call: (Endpoint, string, bool) -> Reply, parse: string -> Option<T>)
    requires KimiPhase(env, call, parse).stop.KimiRanOut? && IsSet(env.openRouterKey)
    requires RouterLostBefore(Attempts(call, parse), FreeModels, |FreeModels|)
    ensures var result, last := GeneratePostsWithFallback(env, call, parse).result, FreeModels[|FreeModels| - 1];
      && result.Failure?
      && Message(result.error) == ExhaustedPrefix + LastErrorPrefix
                                 + ErrorText(AttemptGeneration(call, parse, OpenRouter, last, true).message)
  {
    AllModelsExhausted(env, call, parse);
  }

  /** The exhaustion step for any Kimi run and any non-empty model list. */
  lemma ExhaustedAfterKimi<T>(kimi: KimiRun<T>, attempt: (Endpoint, string, bool) -> Attempt<T>, models: seq<string>)
    requires models != [] && RouterLostBefore(attempt, models, |models|)
    ensures AfterRouter(kimi, RouterLoop(attempt, models)).result
         == Failure(Exhausted(Some(ErrorText(attempt(OpenRouter, models[|models| - 1], true).message))))
    ensures |AfterRouter(kimi, RouterLoop(attempt, models)).errors| == |kimi.errors| + |models|
  {
    var router := RouterLoop(attempt, models);
    RouterExhausted(attempt, models);
    var t := TryOpenRouterModel(attempt, models[|models| - 1]);
    var errors := kimi.errors + router.errors;
    assert errors[|errors| - 1] == router.errors[|models| - 1] == t.entry;
  }

  /** The OpenRouter loop only requests models of its list. */
  lemma {:induction false} RouterCallModels<T>(attempt: (Endpoint, string, bool) -> Attempt<T>, models: seq<string>)
    ensures forall i :: 0 <= i < |RouterLoop(attempt, models).calls| ==> RouterLoop(attempt, models).calls[i].model in models
    decreases |models|
  {
    if models != [] {
      RouterCallModels(attempt, models[1..]);
      var r := RouterLoop(attempt, models);
      var cs := TryOpenRouterModel(attempt, models[0]).calls;
      var rest := RouterLoop(attempt, models[1..]);
      forall i | 0 <= i < |r.calls| ensures r.calls[i].model in models {
        if i >= |cs| && TryOpenRouterModel(attempt, models[0]).Lost? && !TryOpenRouterModel(attempt, models[0]).auth {
          assert r.calls[i] == rest.calls[i - |cs|];
          assert rest.calls[i - |cs|].model in models[1..];
        }
      }
    }
  }

  /** Within one OpenRouter loop over distinct models, no request repeats. */
  lemma {:induction false} RouterCallsDistinct<T>(attempt: (Endpoint, string, bool) -> Attempt<T>,
                                                  models: seq<string>)
    requires Distinct(models)
    ensures Distinct(RouterLoop(attempt, models).calls)
    decreases |models|
  {
    if models != [] {
      var t := TryOpenRouterModel(attempt, models[0]);
      if t.Lost? && !t.auth {
        assert Distinct(models[1..]);
        RouterCallsDistinct(attempt, models[1..]);
        RouterCallModels(attempt, models[1..]);
        var rest := RouterLoop(attempt, models[1..]);
        forall i | 0 <= i < |rest.calls| ensures rest.calls[i].model != models[0] {
          var m := rest.calls[i].model;
          assert m in models[1..];
        }
      }
    }
  }

  /**
   * No (endpoint, model, jsonMode) triple is requested twice in a run, so an
   * oracle that answers each triple once describes every possible network.
   */
  lemma CallsAreDistinct<T>(env: Env, call: (Endpoint, string, bool) -> Reply, parse: string -> Option<T>)
    ensures Distinct(GeneratePostsWithFallback(env, call, parse).calls)
  {
    CatalogueDistinct();
    var kimi := KimiPhase(env, call, parse);
    assert Distinct(kimi.calls) by {
      if IsSet(env.kimiKey) && GetAIClient(KimiProvider, env).Success? {
        var ms := KimiModelList(env.kimiKey.value);
        KimiLoopCalls(Attempts(call, parse), GetAIClient(KimiProvider, env).value, ms);
        assert forall i :: 0 <= i < |kimi.calls| ==> kimi.calls[i].model == ms[i];
      }
    }
    if kimi.stop.KimiRanOut? && GetAIClient(OpenRouterProvider, env).Success? {
      var router := RouterLoop(Attempts(call, parse), FreeModels);
      RouterCallsDistinct(Attempts(call, parse), FreeModels);
      DistinctConcat(kimi.calls, router.calls);
    }
  }

  /** Two duplicate-free sequences with no element in common concatenate to a duplicate-free one. */
  lemma DistinctConcat(a: seq<Call>, b: seq<Call>)
    requires Distinct(a) && Distinct(b)
    requires forall i, j :: 0 <= i < |a| && 0 <= j < |b| ==> a[i].endpoint != b[j].endpoint
    ensures Distinct(a + b)
  {
    forall i, j | 0 <= i < j < |a + b| ensures (a + b)[i] != (a + b)[j] {
      if j < |a| {
        assert (a + b)[i] == a[i] && (a + b)[j] == a[j];
      } else if i >= |a| {
        assert (a + b)[i] == b[i - |a|] && (a + b)[j] == b[j - |a|];
      } else {
        assert (a + b)[i] == a[i] && (a + b)[j] == b[j - |a|];
      }
    }
  }
}

=== FILE: generate_route.dfy ===
/**
 * The `POST` handler of the generate endpoint: a topic guard, one call into
 * prompt building and the fallback orchestrator, character counts added to
 * the returned posts, and the success and error envelopes.
 */
module GenerateRoute {
  import opened Wrappers
  import opened Validation
  import Fallback

  /** The decoded request body; tone and length are passed on unchecked. */
  datatype RequestBody = RequestBody(topic: Option<string>, tone: Option<string>, length: Option<string>)

  /** One post as the model's JSON carries it. */
  datatype Draft = Draft(hook: string, body: string, cta: string, full: string, hashtags: string)

  /** The parsed model output; `posts` may be absent. */
  datatype Payload = Payload(posts: Option<seq<Draft>>)

  datatype ResponseBody =
    | SuccessBody(posts: seq<GeneratedPost>)  // `{ success: true, posts }`
    | ErrorBody(error: string)                // `{ success: false, error }`

  datatype Response = Response(status: int, body: ResponseBody)

  const InvalidTopicLength := "Invalid topic length"

  /** What Node's engine throws for `result.posts.map` when `posts` is absent. */
  const MissingPostsMessage := "Cannot read properties of undefined (reading 'map')"

  /** `!topic || topic.length > 500`, negated. */
  predicate PassesTopicGuard(topic: Option<string>) {
    topic.Some? && topic.value != "" && |topic.value| <= MaxTopicLength
  }

  /** `length || "Medium"`. */
  function LengthOrDefault(length: Option<string>): (r: string)
    ensures r != ""
    ensures length.Some? && length.value != "" ==> r == length.value
    ensures length.None? || length.value == "" ==> r == "Medium"
  {
    if length.Some? && length.value != "" then length.value else "Medium"
  }

  /** `result.posts.map(post => ({ ...post, characterCount: post.full.length }))`. */
  function AddCharacterCounts(drafts: seq<Draft>): (r: seq<GeneratedPost>)
    ensures |r| == |drafts|
    ensures forall i :: 0 <= i < |drafts| ==>
      && r[i].hook == drafts[i].hook && r[i].body == drafts[i].body && r[i].cta == drafts[i].cta
      && r[i].full == drafts[i].full && r[i].hashtags == drafts[i].hashtags
      && r[i].characterCount == |drafts[i].full|
  {
    if drafts == [] then []
    else
      var d := drafts[0];
      [GeneratedPost(d.hook, d.body, d.cta, d.full, d.hashtags, |d.full|)] + AddCharacterCounts(drafts[1..])
  }

  /**
   * The handler. `body` is the outcome of `request.json()`; `generate`
   * stands for prompt building followed by `generatePostsWithFallback`, its
   * failure being the thrown message.
   */
  function Post(body: Result<RequestBody, string>,
                generate: (string, Option<string>, string) -> Result<Fallback.Generation<Payload>, string>): (r: Response)
    ensures r.status == 200 <==> r.body.SuccessBody?
    ensures r.status == 200 || r.status == 400 || r.status == 500
    ensures body.Failure? ==> r == Response(500, ErrorBody(body.error))
    ensures body.Success? && !PassesTopicGuard(body.value.topic) ==> r == Response(400, ErrorBody(InvalidTopicLength))
    ensures r.status == 400 ==> body.Success? && !PassesTopicGuard(body.value.topic)
    ensures body.Success? && PassesTopicGuard(body.value.topic) ==>
      var g := generate(body.value.topic.value, body.value.tone, LengthOrDefault(body.value.length));
      && (g.Failure? ==> r == Response(500, ErrorBody(g.error)))
      && (g.Success? && g.value.payload.posts.Some? ==>
            r == Response(200, SuccessBody(AddCharacterCounts(g.value.payload.posts.value))))
      && (g.Success? && g.value.payload.posts.None? ==> r == Response(500, ErrorBody(MissingPostsMessage)))
  {
    match body
    case Failure(message) => Response(500, ErrorBody(message))
    case Success(req) =>
      if !PassesTopicGuard(req.topic) then Response(400, ErrorBody(InvalidTopicLength))
      else match generate(req.topic.value, req.tone, LengthOrDefault(req.length))
        case Failure(message) => Response(500, ErrorBody(message))
        case Success(result) =>
          match result.payload.posts
          case None => Response(500, ErrorBody(MissingPostsMessage))
          case Some(drafts) => Response(200, SuccessBody(AddCharacterCounts(drafts)))
  }

  /** The guard admits exactly the topics of 1 to 500 code units. */
  lemma TopicGuardBounds(topic: string)
    ensures PassesTopicGuard(Some(topic)) <==> 1 <= |topic| <= MaxTopicLength
    ensures !PassesTopicGuard(None)
  {
  }

  /** A topic the guard refuses never reaches generation: the response does not depend on it. */
  lemma GuardRejectionSkipsGeneration(
    body: RequestBody,
    g1: (string, Option<string>, string) -> Result<Fallback.Generation<Payload>, string>,
    g2: (string, Option<string>, string) -> Result<Fallback.Generation<Payload>, string>)
    requires !PassesTopicGuard(body.topic)
    ensures Post(Success(body), g1) == Post(Success(body), g2) == Response(400, ErrorBody(InvalidTopicLength))
  {
  }

  /** The guard is weaker than the request schema: one- and two-unit topics pass it. */
  lemma GuardWeakerThanSchema(topic: string, tone: Tone)
    requires 1 <= |topic| < MinTopicLength
    ensures PassesTopicGuard(Some(topic))
    ensures ValidateRequest(RawRequest(Some(topic), Some(ToneName(tone)))).Failure?
  {
  }

  /** Within the schema's bounds the guard always passes. */
  lemma SchemaImpliesGuard(raw: RawRequest)
    requires ValidateRequest(raw).Success?
    ensures PassesTopicGuard(raw.topic)
  {
  }

  /** `modelUsed` is not forwarded: two results that differ only there give the same response. */
  lemma ModelUsedNotForwarded(
    body: RequestBody,
    g1: (string, Option<string>, string) -> Result<Fallback.Generation<Payload>, string>,
    g2: (string, Option<string>, string) -> Result<Fallback.Generation<Payload>, string>)
    requires PassesTopicGuard(body.topic)
    requires g1(body.topic.value, body.tone, LengthOrDefault(body.length)).Success?
    requires g2(body.topic.value, body.tone, LengthOrDefault(body.length)).Success?
    requires g1(body.topic.value, body.tone, LengthOrDefault(body.length)).value.payload
          == g2(body.topic.value, body.tone, LengthOrDefault(body.length)).value.payload
    ensures Post(Success(body), g1) == Post(Success(body), g2)
  {
  }

  /** The counted posts keep their order, and dropping the count gives back the drafts. */
  lemma {:induction false} CountsRoundTrip(drafts: seq<Draft>)
    ensures StripCounts(AddCharacterCounts(drafts)) == drafts
    decreases |drafts|
  {
    if drafts != [] {
      CountsRoundTrip(drafts[1..]);
      assert AddCharacterCounts(drafts)[1..] == AddCharacterCounts(drafts[1..]);
    }
  }

  /** The drafts behind counted posts. */
  function StripCounts(posts: seq<GeneratedPost>): seq<Draft> {
    if posts == [] then []
    else [Draft(posts[0].hook, posts[0].body, posts[0].cta, posts[0].full, posts[0].hashtags)]
         + StripCounts(posts[1..])
  }
}

=== FILE: json_span.dfy ===
/**
 * The JSON-span heuristic of `attemptGeneration`: the greedy pattern
 * `\{[\s\S]*\}` picks the text from the first `{` that has some `}` after it
 * to the last `}`; without such a span the whole content is handed to the
 * JSON parser.
 */
module JsonSpan {
  import opened Wrappers

  /** Position of the first `c` in `s`. */
  function FirstIndex(s: string, c: char): (r: Option<nat>)
    ensures r.Some? ==> r.value < |s| && s[r.value] == c
    ensures r.Some? ==> forall i :: 0 <= i < r.value ==> s[i] != c
    ensures r.None? ==> forall i :: 0 <= i < |s| ==> s[i] != c
  {
    if s == [] then None
    else if s[0] == c then Some(0)
    else match FirstIndex(s[1..], c)
      case Some(k) => Some(k + 1)
      case None => None
  }

  /** Position of the last `c` in `s`. */
  function LastIndex(s: string, c: char): (r: Option<nat>)
    ensures r.Some? ==> r.value < |s| && s[r.value] == c
    ensures r.Some? ==> forall i :: r.value < i < |s| ==> s[i] != c
    ensures r.None? ==> forall i :: 0 <= i < |s| ==> s[i] != c
  {
    if s == [] then None
    else if s[|s| - 1] == c then Some(|s| - 1)
    else LastIndex(s[..|s| - 1], c)
  }

  /** The half-open span `[start, end)` the pattern selects, if any. */
  datatype Span = Span(start: nat, end: nat)

  function FindSpan(s: string): Option<Span> {
    match (FirstIndex(s, '{'), LastIndex(s, '}'))
    case (Some(f), Some(l)) => if f < l then Some(Span(f, l + 1)) else None
    case _ => None
  }

  /** The string passed to `JSON.parse`. */
  function Extract(content: string): (r: string)
    ensures |r| <= |content|
  {
    match FindSpan(content)
    case Some(sp) => content[sp.start..sp.end]
    case None => content
  }

  /** `s[i..j]` is a match of `\{[\s\S]*\}`: it opens with `{` and closes with `}`. */
  ghost predicate Matches(s: string, i: nat, j: nat) {
    i + 2 <= j <= |s| && s[i] == '{' && s[j - 1] == '}'
  }

  /**
   * The match a backtracking engine reports for this pattern: the leftmost
   * start, and for it the longest end (the star is greedy).
   */
  ghost predicate LeftmostLongest(s: string, i: nat, j: nat) {
    && Matches(s, i, j)
    && forall i2: nat, j2: nat :: Matches(s, i2, j2) ==> i <= i2 && (i2 == i ==> j2 <= j)
  }

  /** The index arithmetic agrees with the regular-expression semantics. */
  lemma ExtractFollowsRegex(s: string)
    ensures FindSpan(s).Some? <==> exists i: nat, j: nat :: Matches(s, i, j)
    ensures FindSpan(s).Some? ==>
      LeftmostLongest(s, FindSpan(s).value.start, FindSpan(s).value.end)
      && Extract(s) == s[FindSpan(s).value.start..FindSpan(s).value.end]
    ensures FindSpan(s).None? ==> Extract(s) == s
  {
    var f := FirstIndex(s, '{');
    var l := LastIndex(s, '}');
    if FindSpan(s).Some? {
      assert Matches(s, f.value, l.value + 1);
    }
  }

  /**
   * Prose or a code fence around one object is cut away: with no `{` before
   * the object and no `}` after it, exactly the object is parsed.
   */
  lemma ExtractFromWrapped(prefix: string, obj: string, suffix: string)
    requires forall i :: 0 <= i < |prefix| ==> prefix[i] != '{'
    requires forall i :: 0 <= i < |suffix| ==> suffix[i] != '}'
    requires |obj| >= 2 && obj[0] == '{' && obj[|obj| - 1] == '}'
    ensures Extract(prefix + obj + suffix) == obj
  {
    var s := prefix + obj + suffix;
    ExtractFollowsRegex(s);
    assert Matches(s, |prefix|, |prefix| + |obj|);
    var sp := FindSpan(s).value;
    assert forall i :: 0 <= i < |prefix| ==> s[i] == prefix[i];
    assert forall i :: |prefix| + |obj| <= i < |s| ==> s[i] == suffix[i - |prefix| - |obj|];
    assert sp.start == |prefix|;
    assert sp.end == |prefix| + |obj|;
    assert s[|prefix|..|prefix| + |obj|] == obj;
  }

  /** The fenced reply form of a JSON answer. */
  lemma ExtractFromCodeFence()
    ensures Extract("```json\n{\"posts\":[]}\n```") == "{\"posts\":[]}"
  {
    var prefix, obj, suffix := "```json\n", "{\"posts\":[]}", "\n```";
    assert prefix + obj + suffix == "```json\n{\"posts\":[]}\n```";
    ExtractFromWrapped(prefix, obj, suffix);
  }
}

=== FILE: preview.dfy ===
/**
 * The post preview's truncation rule: long content is cut to its first 210
 * code units, followed by an ellipsis and a "see more" toggle, unless the
 * caller forces the full text.
 */
module Preview {
  import opened Wrappers

  const PreviewLength: nat := 210

  /** Whether the preview offers truncation at all. */
  predicate ShouldTruncate(content: string, forceExpanded: bool) {
    !forceExpanded && |content| > PreviewLength
  }

  /** The text shown; `slice(0, 210)` when truncating and not expanded. */
  function DisplayContent(content: string, isExpanded: bool, forceExpanded: bool): (r: string)
    ensures |r| <= |content| && r == content[..|r|]
    ensures !ShouldTruncate(content, forceExpanded) ==> r == content
    ensures ShouldTruncate(content, forceExpanded) && !isExpanded ==> r == content[..PreviewLength]
    ensures isExpanded || forceExpanded ==> r == content
    ensures r != content ==> |r| <= PreviewLength
  {
    if isExpanded || forceExpanded || !ShouldTruncate(content, forceExpanded) then content
    else content[..PreviewLength]
  }

  /** What the content area renders: text, the "... " marker, and the toggle label if any. */
  datatype View = View(text: string, ellipsis: bool, toggle: Option<string>)

  function Render(content: string, isExpanded: bool, forceExpanded: bool): (v: View)
    ensures v.text == DisplayContent(content, isExpanded, forceExpanded)
    ensures v.ellipsis <==> v.text != content
    ensures v.ellipsis <==> !isExpanded && ShouldTruncate(content, forceExpanded)
    ensures v.toggle.Some? <==> ShouldTruncate(content, forceExpanded)
    ensures v.toggle.Some? ==> v.toggle.value == if isExpanded then "see less" else "see more"
    ensures forceExpanded ==> v == View(content, false, None)
  {
    var truncating := ShouldTruncate(content, forceExpanded);
    View(DisplayContent(content, isExpanded, forceExpanded),
         !isExpanded && truncating,
         if truncating then Some(if isExpanded then "see less" else "see more") else None)
  }

  /** The toggle's click handler flips the expanded state. */
  function Toggle(isExpanded: bool): bool {
    !isExpanded
  }

  /** Clicking the toggle twice restores the view, and one click does change it. */
  lemma ToggleTwiceRestores(content: string, isExpanded: bool, forceExpanded: bool)
    ensures Render(content, Toggle(Toggle(isExpanded)), forceExpanded) == Render(content, isExpanded, forceExpanded)
    ensures ShouldTruncate(content, forceExpanded) ==>
      Render(content, Toggle(isExpanded), forceExpanded) != Render(content, isExpanded, forceExpanded)
  {
  }
}

=== FILE: storage.dfy ===
/**
 * The client-side post history: one browser storage key holding the saved
 * posts as JSON. The JSON round trip is taken to be the identity, so the key
 * holds either a list of posts or text that does not parse.
 */
module Storage {
  import opened Wrappers
  import opened Validation

  /** What the history key holds when it is set. */
  datatype Entry =
    | Stored(posts: seq<SavedPost>)
    | Unreadable  // empty text, or text `JSON.parse` rejects

  /**
   * The part of the browser the history functions see. Without a `window`
   * (server-side rendering) every read yields nothing and every write throws
   * and is swallowed.
   */
  datatype Browser = Browser(hasWindow: bool, slot: Option<Entry>)

  /** `storage.getPosts`. */
  function GetPosts(b: Browser): (r: seq<SavedPost>)
    ensures !b.hasWindow || b.slot.None? || b.slot == Some(Unreadable) ==> r == []
    ensures b.hasWindow && b.slot.Some? && b.slot.value.Stored? ==> r == b.slot.value.posts
  {
    if !b.hasWindow then []
    else match b.slot
      case Some(Stored(posts)) => posts
      case _ => []
  }

  /** `localStorage.setItem` of the history key; without a window it throws and is caught. */
  function Write(b: Browser, posts: seq<SavedPost>): (r: Browser)
    ensures r.hasWindow == b.hasWindow
    ensures b.hasWindow ==> GetPosts(r) == posts
    ensures !b.hasWindow ==> r == b
  {
    if b.hasWindow then b.(slot := Some(Stored(posts))) else b
  }

  /** `storage.savePost`: the new post goes in front, with no deduplication and no cap. */
  function SavePost(b: Browser, p: SavedPost): (r: Browser)
    ensures b.hasWindow ==> GetPosts(r) == [p] + GetPosts(b)
    ensures b.hasWindow ==> |GetPosts(r)| == |GetPosts(b)| + 1
    ensures !b.hasWindow ==> r == b
  {
    Write(b, [p] + GetPosts(b))
  }

  /** The posts of `s` whose id differs from `id`, in their original order. */
  function RemoveId(s: seq<SavedPost>, id: string): (r: seq<SavedPost>)
    ensures |r| <= |s|
    ensures forall i :: 0 <= i < |r| ==> r[i].id != id
    ensures forall p :: multiset(r)[p] == if p.id == id then 0 else multiset(s)[p]
  {
    if s == [] then []
    else
      assert s == [s[0]] + s[1..];
      if s[0].id == id then RemoveId(s[1..], id) else [s[0]] + RemoveId(s[1..], id)
  }

  /** `storage.deletePost`: the list is filtered on `p.id !== id`. */
  function DeletePost(b: Browser, id: string): (r: Browser)
    ensures b.hasWindow ==> GetPosts(r) == RemoveId(GetPosts(b), id)
    ensures !b.hasWindow ==> r == b
  {
    Write(b, RemoveId(GetPosts(b), id))
  }

  function FlipFavorite(p: SavedPost): SavedPost {
    p.(isFavorite := !p.isFavorite)
  }

  /** The list with `isFavorite` negated on every post whose id is `id`. */
  function ToggleId(s: seq<SavedPost>, id: string): (r: seq<SavedPost>)
    ensures |r| == |s|
    ensures forall i :: 0 <= i < |s| ==> r[i] == if s[i].id == id then FlipFavorite(s[i]) else s[i]
  {
    if s == [] then []
    else [if s[0].id == id then FlipFavorite(s[0]) else s[0]] + ToggleId(s[1..], id)
  }

  /** `storage.toggleFavorite`. */
  function ToggleFavorite(b: Browser, id: string): (r: Browser)
    ensures b.hasWindow ==> GetPosts(r) == ToggleId(GetPosts(b), id)
    ensures !b.hasWindow ==> r == b
  {
    Write(b, ToggleId(GetPosts(b), id))
  }

  /** `storage.clearHistory`: the key is removed. */
  function ClearHistory(b: Browser): (r: Browser)
    ensures GetPosts(r) == []
    ensures r.hasWindow == b.hasWindow
  {
    if b.hasWindow then b.(slot := None) else b
  }

  /** Filtering distributes over concatenation, so relative order is kept. */
  lemma {:induction false} RemoveIdAppend(a: seq<SavedPost>, c: seq<SavedPost>, id: string)
    ensures RemoveId(a + c, id) == RemoveId(a, id) + RemoveId(c, id)
    decreases |a|
  {
    if a == [] {
      assert a + c == c;
    } else {
      assert (a + c)[1..] == a[1..] + c;
      RemoveIdAppend(a[1..], c, id);
    }
  }

  /** Deleting an id no post carries leaves the list as it was. */
  lemma {:induction false} RemoveAbsentId(s: seq<SavedPost>, id: string)
    requires forall i :: 0 <= i < |s| ==> s[i].id != id
    ensures RemoveId(s, id) == s
    decreases |s|
  {
    if s != [] {
      RemoveAbsentId(s[1..], id);
      assert s == [s[0]] + s[1..];
    }
  }

  /** `deletePost` with an unknown id keeps every stored post. */
  lemma DeleteAbsentKeepsHistory(b: Browser, id: string)
    requires forall i :: 0 <= i < |GetPosts(b)| ==> GetPosts(b)[i].id != id
    ensures GetPosts(DeletePost(b, id)) == GetPosts(b)
  {
    RemoveAbsentId(GetPosts(b), id);
  }

  /** Deleting the same id twice is deleting it once. */
  lemma DeleteIdempotent(b: Browser, id: string)
    ensures GetPosts(DeletePost(DeletePost(b, id), id)) == GetPosts(DeletePost(b, id))
  {
    RemoveAbsentId(GetPosts(DeletePost(b, id)), id);
  }

  /** Toggling the same id twice restores the history. */
  lemma ToggleTwiceRestores(b: Browser, id: string)
    ensures GetPosts(ToggleFavorite(ToggleFavorite(b, id), id)) == GetPosts(b)
  {
    var s := GetPosts(b);
    if b.hasWindow {
      var t := ToggleId(ToggleId(s, id), id);
      assert |t| == |s|;
      forall i | 0 <= i < |s| ensures t[i] == s[i] {
      }
    }
  }

  /** A save over unreadable storage starts a fresh history with just that post. */
  lemma SaveOverUnreadable(b: Browser, p: SavedPost)
    requires b.hasWindow && b.slot == Some(Unreadable)
    ensures GetPosts(SavePost(b, p)) == [p]
  {
  }
}

=== FILE: text.dfy ===
/**
 * The few JavaScript string operations the core relies on: `trim`,
 * `startsWith` and `includes`. A `string` is read as a sequence of UTF-16
 * code units, which is what JavaScript's `length`, `slice` and indexing count.
 */
module Text {

  /** ECMAScript WhiteSpace and LineTerminator code points, the set `trim` removes. */
  predicate IsJsWhitespace(c: char) {
    || c == ' ' || c == '\t' || c == '\n' || c == '\r'
    || c == '\U{000B}' || c == '\U{000C}' || c == '\U{00A0}' || c == '\U{FEFF}'
    || c == '\U{1680}' || ('\U{2000}' <= c <= '\U{200A}')
    || c == '\U{2028}' || c == '\U{2029}' || c == '\U{202F}' || c == '\U{205F}'
    || c == '\U{3000}'
  }

  predicate AllWhitespace(s: string) {
    forall i :: 0 <= i < |s| ==> IsJsWhitespace(s[i])
  }

  /** `s.trimStart()`. */
  function TrimStart(s: string): string {
    if s != [] && IsJsWhitespace(s[0]) then TrimStart(s[1..]) else s
  }

  /** `s.trimEnd()`. */
  function TrimEnd(s: string): string {
    if s != [] && IsJsWhitespace(s[|s| - 1]) then TrimEnd(s[..|s| - 1]) else s
  }

  /** `s.trim()`. */
  function Trim(s: string): string {
    TrimEnd(TrimStart(s))
  }

  /** `trimStart` drops the leading whitespace and nothing else. */
  lemma {:induction false} TrimStartSpec(s: string)
    ensures var r := TrimStart(s);
      && |r| <= |s| && r == s[|s| - |r|..]
      && (forall i :: 0 <= i < |s| - |r| ==> IsJsWhitespace(s[i]))
      && (r != [] ==> !IsJsWhitespace(r[0]))
    decreases |s|
  {
    if s != [] && IsJsWhitespace(s[0]) {
      TrimStartSpec(s[1..]);
      var r := TrimStart(s);
      assert s[1..][|s| - 1 - |r|..] == s[|s| - |r|..];
      forall i | 0 < i < |s| - |r| ensures IsJsWhitespace(s[i]) {
        assert s[i] == s[1..][i - 1];
      }
    }
  }

  /** `trimEnd` drops the trailing whitespace and nothing else. */
  lemma {:induction false} TrimEndSpec(s: string)
    ensures var r := TrimEnd(s);
      && |r| <= |s| && r == s[..|r|]
      && (forall i :: |r| <= i < |s| ==> IsJsWhitespace(s[i]))
      && (r != [] ==> !IsJsWhitespace(r[|r| - 1]))
    decreases |s|
  {
    if s != [] && IsJsWhitespace(s[|s| - 1]) {
      TrimEndSpec(s[..|s| - 1]);
      var r := TrimEnd(s);
      assert s[..|s| - 1][..|r|] == s[..|r|];
      forall i | |r| <= i < |s| - 1 ensures IsJsWhitespace(s[i]) {
        assert s[i] == s[..|s| - 1][i];
      }
    }
  }

  /**
   * `trim` keeps a slice of its input, removes only whitespace on either
   * side of it, and leaves no whitespace at either end.
   */
  lemma TrimSpec(s: string)
    ensures var r := Trim(s);
      && |r| <= |s|
      && (exists i, j :: 0 <= i <= j <= |s| && r == s[i..j] && AllWhitespace(s[..i]) && AllWhitespace(s[j..]))
      && (r != [] ==> !IsJsWhitespace(r[0]) && !IsJsWhitespace(r[|r| - 1]))
  {
    var t := TrimStart(s);
    TrimStartSpec(s);
    TrimEndSpec(t);
    var r := TrimEnd(t);
    var i, j := |s| - |t|, |s| - |t| + |r|;
    assert r == s[i..j];
    assert AllWhitespace(s[..i]) by {
      forall k | 0 <= k < |s[..i]| ensures IsJsWhitespace(s[..i][k]) {
        assert s[..i][k] == s[k];
      }
    }
    assert AllWhitespace(s[j..]) by {
      forall k | 0 <= k < |s[j..]| ensures IsJsWhitespace(s[j..][k]) {
        assert s[j..][k] == t[|r| + k];
      }
    }
    if r != [] {
      assert r[0] == t[0];
    }
  }

  /** `s.startsWith(p)`. */
  predicate StartsWith(s: string, p: string) {
    |p| <= |s| && s[..|p|] == p
  }

  /** `s.includes(sub)`, scanning from the left. */
  predicate Includes(s: string, sub: string)
    decreases |s|
  {
    StartsWith(s, sub) || (s != [] && Includes(s[1..], sub))
  }

  /** `sub` occurs in `s` starting at position `i`. */
  predicate OccursAt(s: string, sub: string, i: nat) {
    i + |sub| <= |s| && s[i..i + |sub|] == sub
  }

  lemma TailSlice(s: string, i: nat, n: nat)
    requires 1 <= i && i + n <= |s|
    ensures s[1..][i - 1..i - 1 + n] == s[i..i + n]
  {
  }

  /** `Includes` holds exactly when `sub` occurs at some position of `s`. */
  lemma {:induction false} IncludesIffOccurs(s: string, sub: string)
    ensures Includes(s, sub) <==> exists i: nat :: OccursAt(s, sub, i)
    decreases |s|
  {
    if StartsWith(s, sub) {
      assert OccursAt(s, sub, 0);
    } else if s == [] {
    } else {
      IncludesIffOccurs(s[1..], sub);
      if Includes(s[1..], sub) {
        var i: nat :| OccursAt(s[1..], sub, i);
        assert s[i + 1..i + 1 + |sub|] == s[1..][i..i + |sub|];
        assert OccursAt(s, sub, i + 1);
      } else {
        forall i: nat | 0 < i
          ensures !OccursAt(s, sub, i)
        {
          if i + |sub| <= |s| {
            TailSlice(s, i, |sub|);
            assert !OccursAt(s[1..], sub, i - 1);
          }
        }
      }
    }
  }

  /** A string with nothing to trim is its own trim. */
  lemma TrimOfTrimmed(s: string)
    requires s != [] ==> !IsJsWhitespace(s[0]) && !IsJsWhitespace(s[|s| - 1])
    ensures Trim(s) == s
  {
    assert TrimStart(s) == s;
  }

  /** Trimming twice is trimming once. */
  lemma TrimIdempotent(s: string)
    ensures Trim(Trim(s)) == Trim(s)
  {
    TrimSpec(s);
    TrimOfTrimmed(Trim(s));
  }

  /** Leading whitespace never changes the trimmed text. */
  lemma {:induction false} TrimIgnoresLeadingWhitespace(w: string, s: string)
    requires AllWhitespace(w)
    ensures Trim(w + s) == Trim(s)
    decreases |w|
  {
    if w != [] {
      assert (w + s)[1..] == w[1..] + s;
      assert AllWhitespace(w[1..]) by {
        forall i | 0 <= i < |w[1..]| ensures IsJsWhitespace(w[1..][i]) {
          assert w[1..][i] == w[i + 1];
        }
      }
      TrimIgnoresLeadingWhitespace(w[1..], s);
    } else {
      assert w + s == s;
    }
  }
}

=== FILE: validation.dfy ===
/**
 * The request and record schemas of the application: the tone enumeration,
 * the generate-request schema with its topic bounds, and the generated and
 * saved post records (a saved post extends a generated one).
 */
module Validation {
  import opened Wrappers

  datatype Tone = Professional | Friendly | Smart | Storytelling

  function ToneName(t: Tone): string {
    match t
    case Professional => "Professional"
    case Friendly => "Friendly"
    case Smart => "Smart"
    case Storytelling => "Storytelling"
  }

  /** The enum check on `tone`: only the four exact names are accepted. */
  function ParseTone(s: string): (r: Option<Tone>)
    ensures r.Some? ==> ToneName(r.value) == s
  {
    if s == "Professional" then Some(Professional)
    else if s == "Friendly" then Some(Friendly)
    else if s == "Smart" then Some(Smart)
    else if s == "Storytelling" then Some(Storytelling)
    else None
  }

  /** Every tone's own name is accepted and denotes that tone. */
  lemma ParseToneName(t: Tone)
    ensures ParseTone(ToneName(t)) == Some(t)
  {
  }

  const MinTopicLength: nat := 3
  const MaxTopicLength: nat := 500

  /** The messages the schema attaches to the two topic-length checks. */
  const TopicTooShortMessage := "Topic must be at least 3 characters"
  const TopicTooLongMessage := "Topic must be less than 500 characters"

  /** A request body as decoded JSON: either field may be absent. */
  datatype RawRequest = RawRequest(topic: Option<string>, tone: Option<string>)

  datatype GenerateRequest = GenerateRequest(topic: string, tone: Tone)

  /** One failed check of the schema. */
  datatype Issue = TopicRequired | TopicTooShort | TopicTooLong | ToneNotAllowed

  /** The custom message zod reports for an issue; the others keep zod's default text. */
  function IssueMessage(i: Issue): (r: Option<string>)
    ensures r.Some? <==> i == TopicTooShort || i == TopicTooLong
    ensures i == TopicTooShort ==> r == Some("Topic must be at least 3 characters")
    ensures i == TopicTooLong ==> r == Some("Topic must be less than 500 characters")
  {
    match i
    case TopicTooShort => Some(TopicTooShortMessage)
    case TopicTooLong => Some(TopicTooLongMessage)
    case _ => None
  }

  function TopicIssues(topic: Option<string>): seq<Issue> {
    match topic
    case None => [TopicRequired]
    case Some(t) =>
      (if |t| < MinTopicLength then [TopicTooShort] else [])
      + (if |t| > MaxTopicLength then [TopicTooLong] else [])
  }

  function ToneIssues(tone: Option<string>): seq<Issue> {
    if tone.Some? && ParseTone(tone.value).Some? then [] else [ToneNotAllowed]
  }

  /**
   * `generateRequestSchema.safeParse`: every check runs, and the request is
   * accepted only when none of them reports an issue.
   */
  function ValidateRequest(raw: RawRequest): (r: Result<GenerateRequest, seq<Issue>>)
    ensures r.Success? <==>
      && raw.topic.Some? && MinTopicLength <= |raw.topic.value| <= MaxTopicLength
      && raw.tone.Some? && ParseTone(raw.tone.value).Some?
    ensures r.Success? ==>
      r.value.topic == raw.topic.value && ToneName(r.value.tone) == raw.tone.value
    ensures r.Failure? ==> r.error != []
    ensures r.Failure? ==>
      && (TopicRequired in r.error <==> raw.topic.None?)
      && (TopicTooShort in r.error <==> raw.topic.Some? && |raw.topic.value| < MinTopicLength)
      && (TopicTooLong in r.error <==> raw.topic.Some? && |raw.topic.value| > MaxTopicLength)
      && (ToneNotAllowed in r.error <==> raw.tone.None? || ParseTone(raw.tone.value).None?)
  {
    var issues := TopicIssues(raw.topic) + ToneIssues(raw.tone);
    if issues == [] then Success(GenerateRequest(raw.topic.value, ParseTone(raw.tone.value).value))
    else Failure(issues)
  }

  /**
   * A topic of exactly 500 code units passes, although the message for the
   * upper bound reads "less than 500".
   */
  lemma MaxLengthTopicAccepted(topic: string, tone: Tone)
    requires |topic| == MaxTopicLength
    ensures ValidateRequest(RawRequest(Some(topic), Some(ToneName(tone))))
         == Success(GenerateRequest(topic, tone))
  {
    ParseToneName(tone);
  }

  /** One code unit more is refused with exactly the upper-bound issue. */
  lemma OverlongTopicRejected(topic: string, tone: Tone)
    requires |topic| == MaxTopicLength + 1
    ensures ValidateRequest(RawRequest(Some(topic), Some(ToneName(tone)))) == Failure([TopicTooLong])
    ensures IssueMessage(TopicTooLong) == Some(TopicTooLongMessage)
  {
    ParseToneName(tone);
    assert TopicIssues(Some(topic)) == [] + [TopicTooLong];
    assert ToneIssues(Some(ToneName(tone))) == [];
    assert TopicIssues(Some(topic)) + ToneIssues(Some(ToneName(tone))) == [TopicTooLong];
  }

  /** A topic of 1 or 2 units is refused with the single lower-bound issue and its message. */
  lemma ShortTopicRejected(topic: string, tone: Tone)
    requires 0 < |topic| < MinTopicLength
    ensures ValidateRequest(RawRequest(Some(topic), Some(ToneName(tone)))) == Failure([TopicTooShort])
    ensures IssueMessage(TopicTooShort) == Some(TopicTooShortMessage)
  {
    ParseToneName(tone);
    assert TopicIssues(Some(topic)) == [TopicTooShort] + [];
    assert ToneIssues(Some(ToneName(tone))) == [];
    assert TopicIssues(Some(topic)) + ToneIssues(Some(ToneName(tone))) == [TopicTooShort];
  }

  /** The fields of `generatedPostSchema`. */
  datatype GeneratedPost = GeneratedPost(
    hook: string, body: string, cta: string, full: string, hashtags: string, characterCount: int)

  /** `savedPostSchema`: every generated-post field plus the history fields. */
  datatype SavedPost = SavedPost(
    hook: string, body: string, cta: string, full: string, hashtags: string, characterCount: int,
    id: string, topic: string, tone: string, createdAt: int, isFavorite: bool)

  /**
   * Parsing a saved post through `savedPostSchema`: the generated-post part
   * comes over as is, and an absent `isFavorite` takes its default `false`.
   */
  function ExtendPost(g: GeneratedPost, id: string, topic: string, tone: string, createdAt: int,
                      isFavorite: Option<bool>): (p: SavedPost)
    ensures p.isFavorite <==> isFavorite == Some(true)
    ensures p.id == id && p.topic == topic && p.tone == tone && p.createdAt == createdAt
  {
    SavedPost(g.hook, g.body, g.cta, g.full, g.hashtags, g.characterCount,
              id, topic, tone, createdAt, match isFavorite case Some(b) => b case None => false)
  }

  /** The `generatedPostSchema` part of a saved post. */
  function BasePost(p: SavedPost): GeneratedPost {
    GeneratedPost(p.hook, p.body, p.cta, p.full, p.hashtags, p.characterCount)
  }

  /** Extending keeps the generated post intact, and a missing flag reads as not favourite. */
  lemma ExtendKeepsBase(g: GeneratedPost, id: string, topic: string, tone: string, createdAt: int,
                        isFavorite: Option<bool>)
    ensures BasePost(ExtendPost(g, id, topic, tone, createdAt, isFavorite)) == g
    ensures ExtendPost(g, id, topic, tone, createdAt, None).isFavorite == false
  {
  }

  /** A saved post is rebuilt exactly from its base and its history fields. */
  lemma ExtendBaseRoundTrip(p: SavedPost)
    ensures ExtendPost(BasePost(p), p.id, p.topic, p.tone, p.createdAt, Some(p.isFavorite)) == p
  {
  }
}

=== FILE: wrappers.dfy ===
/** `Option` and `Result` datatypes shared by every module. */
module Wrappers {

  /** An optional value: a JavaScript `undefined`/`null` is `None`. */
  datatype Option<+T> = None | Some(value: T)

  /** Either a value or the message of the error that was thrown instead. */
  datatype Result<+R, +E> = Success(value: R) | Failure(error: E)
}
